=== FILE: README.md ===
# Retrieval core of a document chat bot, in Dafny

This project models the four small pure kernels of a retrieval-augmented
chat bot written in Python, and proves properties of them:

- **Embedding generation** (`src/backend/generate_embeddings.py`): every
  `.txt` document is tokenized, its token ids are cut into windows of at
  most `CHUNK_SIZE` = 512 tokens, and each window is embedded, decoded back
  to text and stored as `chunks/<stem>_<cidx>.txt`,
  `embeddings/<stem>_<cidx>.npy` and an entry of the `rows` dictionary. The
  dictionary becomes a pandas frame and then a flat inner-product FAISS
  index (`generate_embeddings.dfy`, module `GenerateEmbeddings`).
- **The chunk chat bot** (`src/backend/rag_bot_v2.py`): it loads the index
  and the frame's row count, keeps the search hits that are in range and
  have a file `chunks/<id>.txt`, and formats each as a context block
  (`rag_bot_v2.dfy`, module `RagBotV2`).
- **The earlier whole-document bot** (`src/backend/rag_bot_deprecated.py`):
  three parallel lists (documents, file names, embeddings), and a context
  made of every document the search names (`rag_bot_deprecated.dfy`,
  module `RagBotDeprecated`).
- **The keyword bot** (`src/mock_backend/mock.py`): the first keyword group
  that occurs in the lowered message picks the reply (`mock.dfy`, module
  `Mock`).

A cross-file module (`chunk_addressing.dfy`, module `ChunkAddressing`)
proves a consequence of the two naming schemes. The generator names chunk
files `<stem>_<cidx>.txt`, while the v2 bot looks up `<id>.txt`. A chunk
name always holds `_` and a decimal id never does. So on a chunk directory
filled by the generator, `retrieve_context` always returns
`"No relevant retrieved chunks."`. The model keeps this behaviour as the
code has it.

Helper modules: `Wrappers` (`Option`, `Result`), `Strings` (`join`, `in`,
ASCII `lower`, `strip`, `rfind`), `Decimal` (`str(n)` and `int(s)`),
`Sorting` (string order and `sorted`), `OrderedDict` (an insertion-ordered
`dict`) and `Vectors` (vectors and the flat index).

Every external call becomes a function-typed parameter. This covers the
tokenizer, the model, `tokenizer.decode`, FAISS `search`, the Anthropic
client and file reads. File-system state is passed in as values:
directories are `map<string, T>` keyed by file name, a listing is a
`seq<string>`, and a file that may be missing is an `Option`. Exceptions
the code raises or returns become `Result` errors or `None`.

A document with zero tokens raises nothing and yields no chunks. Nothing
checks embedding dimensions or breaks search ties. The v2 bot skips hits
that are out of range or have no chunk file. The earlier bot does not
filter at all, and a FAISS `-1` wraps to the last document. The two
addressing schemes are kept as written.

## Model

| member | source | states |
|---|---|---|
| `GenerateEmbeddings.NumChunks` | src/backend/generate_embeddings.py:41 | the chunk count is the least k with k * 512 >= n (the ceiling of n / 512); an empty token list gives 0 chunks |
| `GenerateEmbeddings.WindowShape` | src/backend/generate_embeddings.py:44-45 | every window holds 1..512 tokens, every window but the last exactly 512, and window i is the run of ids starting at i * 512 |
| `GenerateEmbeddings.WindowsReassemble` | src/backend/generate_embeddings.py:41-45 | the windows are contiguous and disjoint: concatenated in index order they give back `input_ids` exactly |
| `GenerateEmbeddings.EmbedChunksYields` | src/backend/generate_embeddings.py:41-55 | `embed_chunks` yields ceil(n/512) triples with indices 0, 1, ... ascending, each the embedding and decoded text of its window |
| `GenerateEmbeddings.StemOfTxt` | src/backend/generate_embeddings.py:80 | the stem of `<name>.txt` is `<name>` |
| `GenerateEmbeddings.ChunkNameRoundTrip` | src/backend/generate_embeddings.py:83 | the key `stem_cidx` splits back at its last `_` into the stem and the index, even when the stem contains `_` |
| `GenerateEmbeddings.ChunkNameInjective` | src/backend/generate_embeddings.py:83 | two chunks get the same key only if they have the same stem and the same index |
| `GenerateEmbeddings.ProcessDocuments` | src/backend/generate_embeddings.py:61-72 | a missing `docs/` is FileNotFoundError, an empty `*.txt` listing is RuntimeError (before any row or file is written), and every other case succeeds |
| `GenerateEmbeddings.CorpusWritesOrder` | src/backend/generate_embeddings.py:76-91 | the writes go file by file and then by chunk index: chunk c of file j is write TotalChunks(files[..j]) + c, with key `stem_c` and that window's embedding and text |
| `GenerateEmbeddings.CorpusKeysDistinct` | src/backend/generate_embeddings.py:76-91 | when the files have distinct stems, no two chunk keys are equal |
| `GenerateEmbeddings.ProcessDocumentsRows` | src/backend/generate_embeddings.py:68-93 | with distinct stems, `rows` never overwrites an entry: it is every chunk of the sorted files in order, and its size is the total chunk count |
| `GenerateEmbeddings.CorpusRowAt` | src/backend/generate_embeddings.py:76-91 | entry TotalChunks(files[..j]) + c of the rows is chunk c of files[j], keyed `stem_c`, with its embedding; with `ProcessDocumentsRows`, this holds for `rows` over the sorted files |
| `GenerateEmbeddings.ProcessDocumentsIgnoresListingOrder` | src/backend/generate_embeddings.py:70 | the files are sorted, so the order of the directory listing does not change any result |
| `GenerateEmbeddings.WriteAll` | src/backend/generate_embeddings.py:83-89 | after the `np.save` and `write_text` calls a directory holds exactly its old names and the names written |
| `GenerateEmbeddings.WriteAllKeeps` | src/backend/generate_embeddings.py:83-89 | a file no write names keeps its old content |
| `GenerateEmbeddings.WriteAllLastWrite` | src/backend/generate_embeddings.py:83-89 | writing a file replaces any file of that name: a written name holds what its last write put there |
| `GenerateEmbeddings.CorpusFileAt` | src/backend/generate_embeddings.py:82-89 | with distinct stems, the file `<stem>_<c><ext>` the writes leave in a directory holds the content written for chunk c of that document |
| `GenerateEmbeddings.ProcessDocumentsFileContents` | src/backend/generate_embeddings.py:76-89 | with distinct stems, the run succeeds and, for chunk c of any listed file, `chunks/<stem>_<c>.txt` holds the decoded text of its window and `embeddings/<stem>_<c>.npy` its embedding |
| `GenerateEmbeddings.GeneratedChunkFileNames` | src/backend/generate_embeddings.py:83-89 | every chunk file a run adds is named `<stem>_<cidx>.txt` |
| `GenerateEmbeddings.SaveAllEmbeddings` | src/backend/generate_embeddings.py:99-104 | the frame is indexed by the chunk keys in dictionary order and is as wide as the widest embedding; each entry's row begins with its embedding and is NaN-padded to that width |
| `GenerateEmbeddings.SaveAllEmbeddingsUniform` | src/backend/generate_embeddings.py:102 | when all embeddings have dimension D, the frame is D columns wide and its rows are the embeddings unpadded |
| `GenerateEmbeddings.BuildFaissIndex` | src/backend/generate_embeddings.py:111-128 | a missing frame is FileNotFoundError; otherwise the index has the frame's column count as dimension and exactly one vector per frame row, in row order |
| `GenerateEmbeddings.IndexFollowsRows` | src/backend/generate_embeddings.py:121-128 | FAISS id p of the built index is the chunk named `rows[p]`, and its vector begins with that chunk's embedding |
| `GenerateEmbeddings.IndexMatchesCorpus` | src/backend/generate_embeddings.py:138-142 | after `process_documents`, `save_all_embeddings` and `build_faiss_index`, the index holds one vector per chunk, and id TotalChunks(files[..j]) + c is chunk c of file j under key `stem_c`, its vector beginning with that chunk's embedding |
| `Sorting.Sort` | src/backend/generate_embeddings.py:70 | `sorted` returns its input as a list in code-point string order holding the same names |
| `Sorting.SortedUnique` | src/backend/generate_embeddings.py:70 | two sorted lists holding the same names are equal, so the sort result depends only on the names |
| `OrderedDict.Set` | src/backend/generate_embeddings.py:91 | `rows[key] = emb` appends a new key at the end and replaces the value of an existing key in place |
| `OrderedDict.SetAllFresh` | src/backend/generate_embeddings.py:91 | assigning keys that are all distinct and new gives the entries in assignment order, with nothing overwritten |
| `Decimal.FromNat` | src/backend/rag_bot_v2.py:105 | the decimal text of an id is at least one digit, digits only, with no leading zero; 0 renders as exactly `"0"` |
| `Decimal.ToNatFromNat` | src/backend/generate_embeddings.py:83 | reading back the decimal text of an index gives back that index |
| `Decimal.FromNatInjective` | src/backend/rag_bot_v2.py:105 | distinct ids render differently, so distinct hits look up distinct files `{idx}.txt` |
| `RagBotV2.LoadIndexAndCount` | src/backend/rag_bot_v2.py:37-49 | a missing index file or a missing frame file gives `(None, 0)`; otherwise the loaded index and the frame's row count |
| `RagBotV2.LoadAfterBuild` | src/backend/rag_bot_v2.py:44-46 | loading what the generator saved gives a chunk count equal to the number of vectors in the index |
| `RagBotV2.ContextBlocks` | src/backend/rag_bot_v2.py:94-113 | there are at most as many blocks as hits; there are none exactly when no hit is in `[0, total)` with an existing chunk file; every block starts with the chunk header |
| `RagBotV2.ContextBlocksAppend` | src/backend/rag_bot_v2.py:97-110 | the blocks of two runs of hits are the blocks of each run, in order: search order is kept and each hit is handled on its own |
| `RagBotV2.ContextBlocksSingle` | src/backend/rag_bot_v2.py:102-110 | a single hit gives the block `"📄 Chunk {idx}\n{text}"` when it is in range and its file exists, and nothing otherwise |
| `RagBotV2.AssembleContext` | src/backend/rag_bot_v2.py:118 | no blocks gives `"No relevant retrieved chunks."`; otherwise the separator-joined text starts with the first block |
| `RagBotV2.AssembleContextSingle` | src/backend/rag_bot_v2.py:118 | a single block is the context on its own |
| `RagBotV2.AssembleContextSnoc` | src/backend/rag_bot_v2.py:118 | one more block is appended after the `"\n\n---\n\n"` separator, so no block is dropped and blocks keep their order |
| `Strings.JoinSnoc` | src/backend/rag_bot_v2.py:118 | joining one more part appends the separator and that part |
| `Strings.JoinLength` | src/backend/rag_bot_v2.py:118 | a join's length is the parts' lengths plus one separator between each pair of neighbours |
| `RagBotV2.RetrieveContext` | src/backend/rag_bot_v2.py:52-58 | without an index the result is `"No index available."` |
| `RagBotV2.RetrieveContextJoinsBlocks` | src/backend/rag_bot_v2.py:94-118 | with an index, the context is `AssembleContext` of the blocks of every resolving hit in search order; with `ContextBlocksAppend`, `ContextBlocksSingle` and `AssembleContextSnoc` this is every block joined by the separator |
| `RagBotV2.RetrieveContextOutcome` | src/backend/rag_bot_v2.py:94-120 | with an index, the result is the fallback string exactly when no hit resolves, starts with the chunk header exactly when one does, and is never the no-index string |
| `RagBotV2.Prompt` | src/backend/rag_bot_v2.py:135-144 | the prompt is the fixed opening, the retrieved context, the fixed `User Question: ` label, the question and the fixed closing, each verbatim in that order |
| `RagBotV2.Chat` | src/backend/rag_bot_v2.py:123-169 | without an index the reply is the fixed warning, whatever the embedder, search, chunk files, model call or history; with one, the reply is the model's answer to the prompt built from the retrieved context, or the fixed API error reply when the call fails |
| `RagBotV2.Respond` | src/backend/rag_bot_v2.py:185-194 | a whitespace-only message leaves the history unchanged; any other adds exactly one `(message, reply)` pair at the end; the input box is cleared |
| `Strings.StripEmptyIffBlank` | src/backend/rag_bot_v2.py:186 | `message.strip()` is empty exactly when every character is whitespace |
| `ChunkAddressing.LookupNeverGeneratorNamed` | src/backend/rag_bot_v2.py:105 | the file `<id>.txt` the bot looks up never has the generator's `<stem>_<cidx>.txt` shape |
| `ChunkAddressing.GeneratorKeepsDirectoryShape` | src/backend/generate_embeddings.py:83-89 | a chunk directory holding only generator-named files still does after another generator run |
| `ChunkAddressing.NoHitResolves` | src/backend/rag_bot_v2.py:102-110 | against such a directory no search hit ever yields a block |
| `ChunkAddressing.GeneratedChunksNeverRetrieved` | src/backend/rag_bot_v2.py:94-118 | after a generator run on an empty chunk directory, `retrieve_context` with an index always returns `"No relevant retrieved chunks."` |
| `RagBotDeprecated.CreateEmbeddings` | src/backend/rag_bot_deprecated.py:31-77 | a missing `docs/` or an empty listing gives `(None, None, None)`, and embeddings of unequal length raise; otherwise documents, file names and index vectors are built in lockstep, one per listed file, and the index dimension is the embedding length |
| `RagBotDeprecated.LoadEmbeddings` | src/backend/rag_bot_deprecated.py:79-95 | a missing directory or any failed load gives `(None, None, None)`; otherwise the three loaded values |
| `RagBotDeprecated.PyIndex` | src/backend/rag_bot_deprecated.py:108 | Python indexing succeeds exactly for indices in `[-len, len)`, and then gives the element at the index taken modulo the length, so negative ones count from the end |
| `RagBotDeprecated.ContextParts` | src/backend/rag_bot_deprecated.py:106-108 | one part per hit in search order, with no filtering, each `"Document: {filename}\n{document}"`; IndexError exactly when some hit is outside the index range of either list |
| `RagBotDeprecated.RetrieveContext` | src/backend/rag_bot_deprecated.py:97-110 | IndexError exactly when some hit is outside the index range of the file-name or document list; no hits give the empty context; otherwise the context starts with the part of the first hit |
| `RagBotDeprecated.RetrieveContextJoinsParts` | src/backend/rag_bot_deprecated.py:106-110 | whenever no index raises, the context is all the parts, wrapped `-1` hits included, joined by `"\n\n---\n\n"` |
| `RagBotDeprecated.RetrieveContextInRange` | src/backend/rag_bot_deprecated.py:97-110 | when every hit is a valid position, the context is every named document in search order, joined by the separator |
| `RagBotDeprecated.MissingHitReadsLastDocument` | src/backend/rag_bot_deprecated.py:103-108 | a FAISS `-1` hit is not filtered out: its part is the last file name and the last document |
| `RagBotDeprecated.Prompt` | src/backend/rag_bot_deprecated.py:121-128 | the prompt is the fixed opening, the retrieved context, the fixed `Question: ` label, the question and the fixed closing, each verbatim in that order |
| `RagBotDeprecated.Chat` | src/backend/rag_bot_deprecated.py:112-137 | without an index the reply is the fixed error string; with one, the call fails exactly when retrieval raises, and otherwise returns the model's answer to the prompt built from the retrieved context |
| `Strings.ContainsAt` | src/mock_backend/mock.py:37 | `keyword in message_lower` holds exactly when the keyword occurs at some offset of the lowered message |
| `Mock.FirstMatch` | src/mock_backend/mock.py:36-38 | no reply exactly when no group matches; otherwise the reply of a matching group with no matching group before it |
| `Mock.ChatbotResponse` | src/mock_backend/mock.py:21-41 | the reply is one of the two keyword replies or the default, and it is the default exactly when no keyword group occurs in the lowered message |
| `Mock.ChatbotResponseCases` | src/mock_backend/mock.py:16-41 | "dyslexia" in the lowered message gives the dyslexia reply even if "dyspraxia" is also there; "dyspraxia" alone gives the dyspraxia reply; neither gives the default |
| `Mock.ChatbotResponseExactly` | src/mock_backend/mock.py:16-41 | each of the three replies is given exactly in its own case |
| `Mock.ChatbotResponseIgnoresCaseAndHistory` | src/mock_backend/mock.py:21-32 | a message and its lowered form get the same reply, whatever the history |
| `Strings.LowerIdempotent` | src/mock_backend/mock.py:32 | lowering an already lowered message changes nothing |

## Left out

- The tokenizer, ModernBERT inference, `tokenizer.decode`, FAISS `search`, `read_index` and `write_index`, and the Anthropic client are function-typed parameters with no further meaning.
- Mean pooling, L2 normalisation and all float arithmetic are not modelled. A vector cell is an opaque number or NaN. The same goes for `cosine_sim` and `similarity` in src/mock_backend/scoring.py, whose `main` calls `chatbot_response` with one argument where two are needed.
- text_color_inference.py (hue arithmetic and `html.escape`) and src/mock_backend/mock_ui.py (CSS and an image) are not modelled: they are float and UI code.
- The texts of DYSLEXIA_RESPONSE and DYSPRAXIA_RESPONSE in src/mock_backend/fixed_text.py are replaced by two distinct stand-in strings. The keywords and DEFAULT_RESPONSE are kept verbatim.
- Logging, `print`, the Gradio wiring and the `__main__` blocks are not modelled. This includes v2's `exit(1)` without an index, and the earlier bot's start-up that falls back from `load_embeddings` to `create_embeddings`.
- Persistence formats (pickle, `.npy`, the FAISS file) are taken to round-trip exactly. `mkdir` is not modelled.
- The `*.txt` glob itself is not modelled: the listing is an input. Reading a file is a total function.
- Exceptions inside the external calls are not modelled. These are `embed_text` and `index.search` in v2 (re-raised), `read_text` inside v2's hit loop (caught and skipped), and the model call in the earlier bot. v2's model-call failure is modelled as `None`.
- RagBotV2.Chat: the fallback from `response.content[0].text` to `str(response)` is not modelled. The model call returns the reply text directly.
- GenerateEmbeddings.BuildFaissIndex: requires a rectangular frame. A pandas frame always is one, and the padding that makes it so is modelled in `SaveAllEmbeddings`.
- Strings.Lower: lowers ASCII letters only, not full Unicode `str.lower`.
- GenerateEmbeddings.NumChunks: counts the chunks of the token list the tokenizer returns. The tokenizer is uninterpreted, so its special tokens (`[CLS]`, `[SEP]`) are not modelled, and the model does not promise that empty text yields no chunks: with those tokens it yields one.
- GenerateEmbeddings.Stem: follows `PurePath.stem` for the last dot. Differences between Python versions for names ending in a dot are not modelled.
- v2's `int(raw_idx)` conversion is not modelled: FAISS ids are already integers. The `I[0]` row selection is not modelled either: search returns the id row directly.
- The earlier bot's `respond` is the same as v2's, so `RagBotV2.Respond`, which takes the reply function as a parameter, covers both.

=== FILE: chunk_addressing.dfy ===
/** The two programs address chunk files differently: the generator writes
    `chunks/<stem>_<cidx>.txt` (src/backend/generate_embeddings.py) while
    the v2 bot reads `chunks/<id>.txt` for a bare FAISS id
    (src/backend/rag_bot_v2.py). A chunk name always holds `_` and a decimal
    id never does, so no lookup of the bot finds a file of the generator,
    and on a chunk directory the generator filled the bot always answers
    with the fallback context. */
module ChunkAddressing {
  import opened Wrappers
  import opened Vectors
  import Strings
  import Decimal
  import GenerateEmbeddings
  import RagBotV2

  /** A file name of the shape `<stem>_<cidx>.txt`. */
  predicate GeneratorNamed(name: string) {
    && |name| >= 4 && name[|name| - 4..] == ".txt"
    && GenerateEmbeddings.SplitChunkName(name[..|name| - 4]).Some?
  }

  /** The name the bot looks up is never a name the generator writes. */
  lemma LookupNeverGeneratorNamed(idx: nat)
    ensures !GeneratorNamed(RagBotV2.ChunkFileName(idx))
  {
    var name := RagBotV2.ChunkFileName(idx);
    var digits := Decimal.FromNat(idx);
    assert name[..|name| - 4] == digits;
    Decimal.FromNatAvoids(idx, '_');
    assert Strings.LastIndexOf(digits, '_') == -1;
  }

  /** On a chunk directory holding only generator-named files (an empty one
      to start with), one more generator run leaves it so. */
  lemma GeneratorKeepsDirectoryShape(docsPresent: bool, listing: seq<string>, read: string -> string,
                                     m: GenerateEmbeddings.TextModel, embeddingDir: map<string, Vec>,
                                     chunkDir: map<string, string>, g: GenerateEmbeddings.Generated)
    requires forall name :: name in chunkDir ==> GeneratorNamed(name)
    requires GenerateEmbeddings.ProcessDocuments(docsPresent, listing, read, m, embeddingDir, chunkDir) == Success(g)
    ensures forall name :: name in g.chunkFiles ==> GeneratorNamed(name)
  {
    GenerateEmbeddings.GeneratedChunkFileNames(docsPresent, listing, read, m, embeddingDir, chunkDir);
  }

  /** No search hit resolves against such a directory, whatever the index,
      the chunk count and the search return. */
  lemma NoHitResolves(hits: seq<int>, total: nat, chunkDir: map<string, string>)
    requires forall name :: name in chunkDir ==> GeneratorNamed(name)
    ensures RagBotV2.ContextBlocks(hits, total, chunkDir) == []
  {
    forall i | 0 <= i < |hits|
      ensures !RagBotV2.Resolves(hits[i], total, chunkDir)
    {
      if 0 <= hits[i] {
        LookupNeverGeneratorNamed(hits[i]);
      }
    }
  }

  /** After a generator run on an empty chunk directory, `retrieve_context`
      with a loaded index always returns "No relevant retrieved chunks.". */
  lemma GeneratedChunksNeverRetrieved(docsPresent: bool, listing: seq<string>, read: string -> string,
                                      m: GenerateEmbeddings.TextModel, embeddingDir: map<string, Vec>,
                                      g: GenerateEmbeddings.Generated,
                                      query: string, ix: FlatIndex, total: nat, topK: nat, b: RagBotV2.QueryBackend)
    requires GenerateEmbeddings.ProcessDocuments(docsPresent, listing, read, m, embeddingDir, map[]) == Success(g)
    ensures RagBotV2.RetrieveContext(query, Some(ix), total, topK, b, g.chunkFiles) == RagBotV2.NoRelevantChunks
  {
    GeneratorKeepsDirectoryShape(docsPresent, listing, read, m, embeddingDir, map[], g);
    NoHitResolves(b.search(ix, b.embed(query), topK), total, g.chunkFiles);
  }
}

=== FILE: decimal.dfy ===
/** Decimal rendering of non-negative integers, as Python's `str(n)` and
    `f"{n}"` produce it, with its inverse. */
module Decimal {

  predicate IsDigit(c: char) {
    '0' <= c <= '9'
  }

  predicate AllDigits(s: string) {
    forall i :: 0 <= i < |s| ==> IsDigit(s[i])
  }

  function DigitChar(d: nat): (c: char)
    requires d < 10
    ensures IsDigit(c)
  {
    ('0' as int + d) as char
  }

  function DigitValue(c: char): (d: nat)
    requires IsDigit(c)
    ensures d < 10
  {
    c as int - '0' as int
  }

  /** `str(n)` for `n >= 0`: at least one digit, only digits, and no
      leading zero unless the number is zero itself. */
  function FromNat(n: nat): (s: string)
    ensures |s| >= 1
    ensures AllDigits(s)
    ensures s[0] == '0' <==> n == 0
    ensures n == 0 ==> s == "0"
    decreases n
  {
    if n < 10 then [DigitChar(n)] else FromNat(n / 10) + [DigitChar(n % 10)]
  }

  /** `int(s)` for a string of decimal digits. */
  function ToNat(s: string): nat
    requires AllDigits(s)
  {
    if |s| == 0 then 0 else ToNat(s[..|s| - 1]) * 10 + DigitValue(s[|s| - 1])
  }

  /** Parsing a rendered number gives the number back. */
  lemma {:induction false} ToNatFromNat(n: nat)
    ensures ToNat(FromNat(n)) == n
    decreases n
  {
    if n >= 10 {
      var s := FromNat(n);
      assert s[..|s| - 1] == FromNat(n / 10);
      ToNatFromNat(n / 10);
    }
  }

  /** Different numbers render differently. */
  lemma FromNatInjective(m: nat, n: nat)
    ensures FromNat(m) == FromNat(n) ==> m == n
  {
    ToNatFromNat(m);
    ToNatFromNat(n);
  }

  /** A rendered number is made of digits only, so it never holds `c` when
      `c` is not a digit (an underscore, a dot). */
  lemma FromNatAvoids(n: nat, c: char)
    requires !IsDigit(c)
    ensures c !in FromNat(n)
  {
  }
}

=== FILE: generate_embeddings.dfy ===
/** The embedding generator (src/backend/generate_embeddings.py): each
    document's token ids are cut into windows of at most `ChunkSize` tokens,
    each window is embedded and decoded back to text, and the chunk is
    stored under the name `stem_cidx` in three places: an `.npy` file, a
    `.txt` file and the `rows` dictionary that becomes the embedding frame
    and then the flat index. */
module GenerateEmbeddings {
  import opened Wrappers
  import opened Strings
  import Decimal
  import Sorting
  import opened OrderedDict
  import opened Vectors

  /** CHUNK_SIZE. */
  const ChunkSize: nat := 512

  type Token = int

  /** The external collaborators of the generator. */
  datatype TextModel = TextModel(
    tokenize: string -> seq<Token>,  // the tokenizer's `input_ids` for a whole document, untruncated
    embed: seq<Token> -> Vec,        // the model's mean-pooled, L2-normalised output for one window
    decode: seq<Token> -> string)    // `tokenizer.decode(ids, skip_special_tokens=True)`

  // ---------------------------------------------------------------------
  // Chunking (embed_chunks)
  // ---------------------------------------------------------------------

  /** `(n + CHUNK_SIZE - 1) // CHUNK_SIZE`, the least k with k * CHUNK_SIZE >= n. */
  function NumChunks(n: nat): (k: nat)
    ensures k * ChunkSize >= n
    ensures k * ChunkSize < n + ChunkSize
  {
    (n + ChunkSize - 1) / ChunkSize
  }

  /** Python's `s[lo:hi]` for non-negative bounds: both are clamped to the
      length, and a reversed range is empty. */
  function Slice<T>(s: seq<T>, lo: nat, hi: nat): seq<T> {
    var a := if lo < |s| then lo else |s|;
    var b := if hi < |s| then hi else |s|;
    if a <= b then s[a..b] else []
  }

  /** `input_ids[i * CHUNK_SIZE:(i + 1) * CHUNK_SIZE]`. */
  function Window(ids: seq<Token>, i: nat): seq<Token> {
    Slice(ids, i * ChunkSize, (i + 1) * ChunkSize)
  }

  /** The windows `embed_chunks` visits, for i in range(num_chunks). */
  function Windows(ids: seq<Token>): seq<seq<Token>> {
    seq(NumChunks(|ids|), i requires 0 <= i < NumChunks(|ids|) => Window(ids, i))
  }

  /** One value yielded by `embed_chunks`: (embedding, chunk_text, i). */
  datatype ChunkEmbedding = ChunkEmbedding(embedding: Vec, text: string, index: nat)

  /** `embed_chunks(text, tokenizer, model)`, as the list of what it yields. */
  function EmbedChunks(text: string, m: TextModel): seq<ChunkEmbedding> {
    var windows := Windows(m.tokenize(text));
    seq(|windows|, i requires 0 <= i < |windows| =>
      ChunkEmbedding(m.embed(windows[i]), m.decode(windows[i]), i))
  }

  /** Every window holds between 1 and CHUNK_SIZE tokens, all but the last
      hold exactly CHUNK_SIZE, and window i is the run of tokens starting
      at i * CHUNK_SIZE. */
  lemma WindowShape(ids: seq<Token>, i: nat)
    requires i < NumChunks(|ids|)
    ensures 1 <= |Window(ids, i)| <= ChunkSize
    ensures i + 1 < NumChunks(|ids|) ==> |Window(ids, i)| == ChunkSize
    ensures i * ChunkSize + |Window(ids, i)| <= |ids|
    ensures Window(ids, i) == ids[i * ChunkSize..i * ChunkSize + |Window(ids, i)|]
  {
    var k := NumChunks(|ids|);
    assert i * ChunkSize < |ids| by {
      assert (k - 1) * ChunkSize < |ids|;
      assert i * ChunkSize <= (k - 1) * ChunkSize;
    }
    if i + 1 < k {
      assert (i + 1) * ChunkSize <= (k - 1) * ChunkSize;
    }
  }

  /** Concatenation of a list of sequences, in order. */
  function Flatten<T>(ws: seq<seq<T>>): seq<T>
    decreases |ws|
  {
    if |ws| == 0 then [] else Flatten(ws[..|ws| - 1]) + ws[|ws| - 1]
  }

  /** The elements of the first k parts come first. */
  lemma {:induction false} FlattenPrefix<T>(ws: seq<seq<T>>, k: nat)
    requires k <= |ws|
    ensures |Flatten(ws[..k])| <= |Flatten(ws)|
    ensures Flatten(ws)[..|Flatten(ws[..k])|] == Flatten(ws[..k])
    decreases |ws|
  {
    if k < |ws| {
      var n := |ws| - 1;
      assert ws[..n][..k] == ws[..k];
      FlattenPrefix(ws[..n], k);
      var pk := Flatten(ws[..k]);
      assert (Flatten(ws[..n]) + ws[n])[..|pk|] == Flatten(ws[..n])[..|pk|];
    } else {
      assert ws[..k] == ws;
    }
  }

  /** Element c of part j sits right after the elements of the parts before it. */
  lemma FlattenAt<T>(ws: seq<seq<T>>, j: nat, c: nat)
    requires j < |ws| && c < |ws[j]|
    ensures |Flatten(ws[..j])| + c < |Flatten(ws)|
    ensures Flatten(ws)[|Flatten(ws[..j])| + c] == ws[j][c]
  {
    var upto := ws[..j + 1];
    assert upto[..j] == ws[..j] && upto[j] == ws[j];
    assert Flatten(upto) == Flatten(ws[..j]) + ws[j];
    FlattenPrefix(ws, j + 1);
  }

  lemma {:induction false} WindowsPrefix(ids: seq<Token>, j: nat)
    requires j <= NumChunks(|ids|)
    ensures j * ChunkSize <= |ids| ==> Flatten(Windows(ids)[..j]) == ids[..j * ChunkSize]
    ensures j * ChunkSize > |ids| ==> Flatten(Windows(ids)[..j]) == ids
  {
    if j > 0 {
      var ws := Windows(ids);
      assert ws[..j][..j - 1] == ws[..j - 1];
      WindowsPrefix(ids, j - 1);
      WindowShape(ids, j - 1);
      assert (j - 1) * ChunkSize < |ids|;
      assert ws[j - 1] == Window(ids, j - 1);
      var lo := (j - 1) * ChunkSize;
      if j * ChunkSize <= |ids| {
        assert ids[..j * ChunkSize] == ids[..lo] + ids[lo..j * ChunkSize];
      } else {
        assert ids == ids[..lo] + ids[lo..];
      }
    } else {
      assert Windows(ids)[..0] == [];
    }
  }

  /** The windows are contiguous and do not overlap: concatenated in index
      order they give back the token ids exactly. */
  lemma WindowsReassemble(ids: seq<Token>)
    ensures Flatten(Windows(ids)) == ids
  {
    var k := NumChunks(|ids|);
    WindowsPrefix(ids, k);
    assert Windows(ids)[..k] == Windows(ids);
    if k * ChunkSize <= |ids| {
      assert ids[..k * ChunkSize] == ids;
    }
  }

  /** A document of n tokens yields ceil(n / CHUNK_SIZE) chunks (none for an
      empty one), with indices 0, 1, ... in ascending order, each the
      embedding and decoded text of its window. */
  lemma EmbedChunksYields(text: string, m: TextModel)
    ensures var n := |m.tokenize(text)|;
            var cs := EmbedChunks(text, m);
            && |cs| * ChunkSize >= n && |cs| * ChunkSize < n + ChunkSize
            && (|cs| == 0 <==> n == 0)
            && (forall i :: 0 <= i < |cs| ==> cs[i].index == i)
            && (forall i :: 0 <= i < |cs| ==>
                  && cs[i].embedding == m.embed(Window(m.tokenize(text), i))
                  && cs[i].text == m.decode(Window(m.tokenize(text), i)))
  {
  }

  // ---------------------------------------------------------------------
  // Naming (process_documents)
  // ---------------------------------------------------------------------

  /** `Path(name).stem`: the name without its last suffix, where a suffix
      starts at the last dot that is neither the first nor the last
      character. */
  function Stem(name: string): string {
    var i := LastIndexOf(name, '.');
    if 0 < i < |name| - 1 then name[..i] else name
  }

  /** For the `*.txt` files the generator lists, the stem is the name
      without `.txt` (the name `.txt` alone is its own stem). */
  lemma StemOfTxt(name: string)
    requires |name| > 4 && name[|name| - 4..] == ".txt"
    ensures Stem(name) == name[..|name| - 4]
  {
    assert name[|name| - 4] == '.';
    assert forall j :: |name| - 4 < j < |name| ==> name[j] != '.' by {
      forall j | |name| - 4 < j < |name| ensures name[j] != '.' {
        assert name[j] == name[|name| - 4..][j - (|name| - 4)];
      }
    }
  }

  /** `f"{base_name}_{cidx}"`. */
  function ChunkName(stem: string, cidx: nat): string {
    stem + "_" + Decimal.FromNat(cidx)
  }

  /** Reads a chunk name back: the stem is what precedes the last `_`, the
      index is the decimal number after it. */
  function SplitChunkName(name: string): Option<(string, nat)> {
    var u := LastIndexOf(name, '_');
    if u < 0 then None
    else
      var suffix := name[u + 1..];
      if |suffix| > 0 && Decimal.AllDigits(suffix) then Some((name[..u], Decimal.ToNat(suffix)))
      else None
  }

  /** A chunk name determines its stem and index, because the decimal part
      holds no `_` (even when the stem does). */
  lemma ChunkNameRoundTrip(stem: string, cidx: nat)
    ensures SplitChunkName(ChunkName(stem, cidx)) == Some((stem, cidx))
  {
    var digits := Decimal.FromNat(cidx);
    var name := ChunkName(stem, cidx);
    Decimal.FromNatAvoids(cidx, '_');
    assert LastIndexOf(name, '_') == |stem| by {
      assert name[|stem|] == '_';
      forall j | |stem| < j < |name| ensures name[j] != '_' {
        assert name[j] == digits[j - |stem| - 1];
      }
    }
    assert name[|stem| + 1..] == digits;
    assert name[..|stem|] == stem;
    Decimal.ToNatFromNat(cidx);
  }

  lemma ChunkNameInjective(s1: string, c1: nat, s2: string, c2: nat)
    requires ChunkName(s1, c1) == ChunkName(s2, c2)
    ensures s1 == s2 && c1 == c2
  {
    ChunkNameRoundTrip(s1, c1);
    ChunkNameRoundTrip(s2, c2);
  }

  // ---------------------------------------------------------------------
  // Writes (process_documents)
  // ---------------------------------------------------------------------

  /** What the inner loop stores for one chunk: its name, its embedding
      (to `<name>.npy` and to `rows[name]`) and its text (to `<name>.txt`). */
  datatype ChunkWrite = ChunkWrite(name: string, embedding: Vec, text: string)

  function DocumentWrites(stem: string, chunks: seq<ChunkEmbedding>): seq<ChunkWrite> {
    seq(|chunks|, i requires 0 <= i < |chunks| =>
      ChunkWrite(ChunkName(stem, chunks[i].index), chunks[i].embedding, chunks[i].text))
  }

  /** The writes of the inner loop for one listed file. */
  function FileWrites(f: string, read: string -> string, m: TextModel): seq<ChunkWrite> {
    DocumentWrites(Stem(f), EmbedChunks(read(f), m))
  }

  function WritesPerFile(files: seq<string>, read: string -> string, m: TextModel): seq<seq<ChunkWrite>> {
    seq(|files|, i requires 0 <= i < |files| => FileWrites(files[i], read, m))
  }

  /** The writes of the two nested loops over `files`, in visiting order. */
  function CorpusWrites(files: seq<string>, read: string -> string, m: TextModel): seq<ChunkWrite> {
    Flatten(WritesPerFile(files, read, m))
  }

  /** The number of chunks of the listed documents. */
  function TotalChunks(files: seq<string>, read: string -> string, m: TextModel): nat
    decreases |files|
  {
    if |files| == 0 then 0
    else
      var f := files[|files| - 1];
      TotalChunks(files[..|files| - 1], read, m) + NumChunks(|m.tokenize(read(f))|)
  }

  /** Writing `files` into `dir` in order: the directory afterwards holds
      exactly the old names and the written ones. */
  function WriteAll<T>(dir: map<string, T>, files: seq<(string, T)>): (r: map<string, T>)
    ensures r.Keys == dir.Keys + set i | 0 <= i < |files| :: files[i].0
    decreases |files|
  {
    if |files| == 0 then dir
    else
      var init := files[..|files| - 1];
      var last := files[|files| - 1];
      assert (set i | 0 <= i < |files| :: files[i].0) == (set i | 0 <= i < |init| :: init[i].0) + {last.0} by {
        assert forall i :: 0 <= i < |init| ==> init[i] == files[i];
      }
      WriteAll(dir, init)[last.0 := last.1]
  }

  /** A name nobody writes keeps its old content. */
  lemma {:induction false} WriteAllKeeps<T>(dir: map<string, T>, files: seq<(string, T)>, name: string)
    requires name in dir
    requires forall i :: 0 <= i < |files| ==> files[i].0 != name
    ensures name in WriteAll(dir, files) && WriteAll(dir, files)[name] == dir[name]
    decreases |files|
  {
    if |files| > 0 {
      var init := files[..|files| - 1];
      assert forall i :: 0 <= i < |init| ==> init[i] == files[i];
      WriteAllKeeps(dir, init, name);
    }
  }

  /** A file written to a directory replaces any file of the same name: a
      written name holds what its last write put there. */
  lemma {:induction false} WriteAllLastWrite<T>(dir: map<string, T>, files: seq<(string, T)>, i: nat)
    requires i < |files|
    requires forall k :: i < k < |files| ==> files[k].0 != files[i].0
    ensures files[i].0 in WriteAll(dir, files) && WriteAll(dir, files)[files[i].0] == files[i].1
    decreases |files|
  {
    if i < |files| - 1 {
      var init := files[..|files| - 1];
      assert forall k :: 0 <= k < |init| ==> init[k] == files[k];
      assert files[|files| - 1].0 != files[i].0;
      WriteAllLastWrite(dir, init, i);
    }
  }

  function RowEntries(ws: seq<ChunkWrite>): Dict<string, Vec> {
    seq(|ws|, i requires 0 <= i < |ws| => (ws[i].name, ws[i].embedding))
  }

  function FileEntries<T>(ws: seq<ChunkWrite>, ext: string, content: ChunkWrite -> T): seq<(string, T)> {
    seq(|ws|, i requires 0 <= i < |ws| => (ws[i].name + ext, content(ws[i])))
  }

  /** The exceptions `process_documents` and `build_faiss_index` raise:
      FileNotFoundError for a missing `docs/`,
      RuntimeError for a listing without `.txt` files, FileNotFoundError
      for a missing `all_embeddings.pkl`. */
  datatype GenError = DocsDirMissing | NoTxtFiles | DataFrameMissing

  /** What `process_documents` leaves behind: the returned `rows` and the
      contents of `embeddings/` and `chunks/`. */
  datatype Generated = Generated(
    rows: Dict<string, Vec>,
    embeddingFiles: map<string, Vec>,
    chunkFiles: map<string, string>)

  /** `process_documents`: `listing` is the `.txt` files the glob finds in `docs`, `read`
      gives a file's text, and the two directories are given as they were
      before the run. */
  function ProcessDocuments(docsPresent: bool, listing: seq<string>, read: string -> string, m: TextModel,
                            embeddingDir: map<string, Vec>, chunkDir: map<string, string>): (r: Result<Generated, GenError>)
    ensures r == Failure(DocsDirMissing) <==> !docsPresent
    ensures r == Failure(NoTxtFiles) <==> docsPresent && |listing| == 0
    ensures r.Success? || r == Failure(DocsDirMissing) || r == Failure(NoTxtFiles)
  {
    if !docsPresent then Failure(DocsDirMissing)
    else
      var files := Sorting.Sort(listing);
      assert |files| == |multiset(files)| == |multiset(listing)| == |listing|;
      if |files| == 0 then Failure(NoTxtFiles)
      else
        var ws := CorpusWrites(files, read, m);
        Success(Generated(
          SetAll([], RowEntries(ws)),
          WriteAll(embeddingDir, FileEntries(ws, ".npy", (w: ChunkWrite) => w.embedding)),
          WriteAll(chunkDir, FileEntries(ws, ".txt", (w: ChunkWrite) => w.text))))
  }

  // ---------------------------------------------------------------------
  // Properties of process_documents
  // ---------------------------------------------------------------------

  lemma PerFilePrefix(files: seq<string>, read: string -> string, m: TextModel, k: nat)
    requires k <= |files|
    ensures WritesPerFile(files[..k], read, m) == WritesPerFile(files, read, m)[..k]
  {
  }

  /** The writes of a listing are those of all but its last file, followed
      by those of the last file. */
  lemma CorpusWritesSnoc(files: seq<string>, read: string -> string, m: TextModel)
    requires |files| > 0
    ensures CorpusWrites(files, read, m)
         == CorpusWrites(files[..|files| - 1], read, m) + FileWrites(files[|files| - 1], read, m)
  {
    PerFilePrefix(files, read, m, |files| - 1);
  }

  lemma {:induction false} CorpusWritesLength(files: seq<string>, read: string -> string, m: TextModel)
    ensures |CorpusWrites(files, read, m)| == TotalChunks(files, read, m)
    decreases |files|
  {
    if |files| > 0 {
      var n := |files| - 1;
      CorpusWritesLength(files[..n], read, m);
      CorpusWritesSnoc(files, read, m);
      DocumentWritesAt(Stem(files[n]), read(files[n]), m);
    }
  }

  /** The writes for one document: one per window, in window order. */
  lemma DocumentWritesAt(stem: string, text: string, m: TextModel)
    ensures var ws := DocumentWrites(stem, EmbedChunks(text, m));
            var ids := m.tokenize(text);
            && |ws| == NumChunks(|ids|)
            && forall c :: 0 <= c < |ws| ==>
                 ws[c] == ChunkWrite(ChunkName(stem, c), m.embed(Window(ids, c)), m.decode(Window(ids, c)))
  {
  }

  /** Writes come document by document in the given file order and, within
      a document, in chunk-index order: chunk c of files[j] is write number
      TotalChunks(files[..j]) + c, and it carries that window's name,
      embedding and text. */
  lemma CorpusWritesOrder(files: seq<string>, read: string -> string, m: TextModel, j: nat, c: nat)
    requires j < |files|
    requires c < NumChunks(|m.tokenize(read(files[j]))|)
    ensures TotalChunks(files[..j], read, m) + c < |CorpusWrites(files, read, m)|
    ensures CorpusWrites(files, read, m)[TotalChunks(files[..j], read, m) + c]
         == ChunkWrite(ChunkName(Stem(files[j]), c),
                       m.embed(Window(m.tokenize(read(files[j])), c)),
                       m.decode(Window(m.tokenize(read(files[j])), c)))
  {
    var per := WritesPerFile(files, read, m);
    var pre := CorpusWrites(files[..j], read, m);
    PerFilePrefix(files, read, m, j);
    assert pre == Flatten(per[..j]);
    CorpusWritesLength(files[..j], read, m);
    FlattenAt(per, j, c);
    assert CorpusWrites(files, read, m)[|pre| + c] == per[j][c];
    assert per[j] == FileWrites(files[j], read, m);
    DocumentWriteAt(Stem(files[j]), read(files[j]), m, c);
  }

  /** One write of a document: chunk c is stored under `<stem>_<c>`. */
  lemma DocumentWriteAt(stem: string, text: string, m: TextModel, c: nat)
    requires c < NumChunks(|m.tokenize(text)|)
    ensures c < |DocumentWrites(stem, EmbedChunks(text, m))|
    ensures DocumentWrites(stem, EmbedChunks(text, m))[c]
         == ChunkWrite(ChunkName(stem, c), m.embed(Window(m.tokenize(text), c)), m.decode(Window(m.tokenize(text), c)))
  {
    DocumentWritesAt(stem, text, m);
  }

  /** The writes of one document are named `<stem>_0`, `<stem>_1`, ... */
  predicate NamedInOrder(doc: seq<ChunkWrite>, stem: string) {
    forall i :: 0 <= i < |doc| ==> doc[i].name == ChunkName(stem, i)
  }

  lemma DocumentWritesNamed(stem: string, text: string, m: TextModel)
    ensures NamedInOrder(DocumentWrites(stem, EmbedChunks(text, m)), stem)
  {
    DocumentWritesAt(stem, text, m);
  }

  function Stems(files: seq<string>): seq<string> {
    seq(|files|, i requires 0 <= i < |files| => Stem(files[i]))
  }

  /** `name` reads back as `<stem>_<cidx>` for one of `stems`. */
  predicate NamedAfter(name: string, stems: seq<string>) {
    SplitChunkName(name).Some? && SplitChunkName(name).value.0 in stems
  }

  /** Every write is named `<stem>_<cidx>` for one of `stems`. */
  predicate AllNamedAfter(ws: seq<ChunkWrite>, stems: seq<string>) {
    forall p :: 0 <= p < |ws| ==> NamedAfter(ws[p].name, stems)
  }

  lemma NamedAfterAppend(pre: seq<ChunkWrite>, doc: seq<ChunkWrite>, stems: seq<string>, stem: string)
    requires AllNamedAfter(pre, stems) && NamedInOrder(doc, stem)
    ensures AllNamedAfter(pre + doc, stems + [stem])
  {
    var ws := pre + doc;
    forall p | 0 <= p < |ws|
      ensures NamedAfter(ws[p].name, stems + [stem])
    {
      if p < |pre| {
        assert ws[p] == pre[p];
        assert NamedAfter(pre[p].name, stems);
      } else {
        assert ws[p] == doc[p - |pre|];
        ChunkNameRoundTrip(stem, p - |pre|);
      }
    }
  }

  /** Every write is named `<stem>_<cidx>` for the stem of a listed file. */
  lemma {:induction false} CorpusWriteNames(files: seq<string>, read: string -> string, m: TextModel)
    ensures AllNamedAfter(CorpusWrites(files, read, m), Stems(files))
    decreases |files|
  {
    if |files| > 0 {
      var n := |files| - 1;
      var init := files[..n];
      var pre := CorpusWrites(init, read, m);
      var doc := FileWrites(files[n], read, m);
      assert CorpusWrites(files, read, m) == pre + doc by {
        CorpusWritesSnoc(files, read, m);
      }
      assert Stems(files) == Stems(init) + [Stem(files[n])];
      assert AllNamedAfter(pre + doc, Stems(init) + [Stem(files[n])]) by {
        CorpusWriteNames(init, read, m);
        DocumentWritesNamed(Stem(files[n]), read(files[n]), m);
        NamedAfterAppend(pre, doc, Stems(init), Stem(files[n]));
      }
    }
  }

  /** Distinct files have distinct stems (the hypothesis under which the
      chunk names cannot collide). */
  predicate UniqueStems(files: seq<string>) {
    forall i, j :: 0 <= i < j < |files| ==> Stem(files[i]) != Stem(files[j])
  }

  lemma {:induction false} CountAtMostOne(a: seq<string>, x: string)
    requires UniqueStems(a)
    ensures multiset(a)[x] <= 1
    decreases |a|
  {
    if |a| > 0 {
      var n := |a| - 1;
      assert a == a[..n] + [a[n]];
      CountAtMostOne(a[..n], x);
    }
  }

  lemma UniqueStemsPermutation(a: seq<string>, b: seq<string>)
    requires multiset(a) == multiset(b) && UniqueStems(a)
    ensures UniqueStems(b)
  {
    forall i, j | 0 <= i < j < |b|
      ensures Stem(b[i]) != Stem(b[j])
    {
      assert b[i] in multiset(a) && b[j] in multiset(a);
      var p :| 0 <= p < |a| && a[p] == b[i];
      var q :| 0 <= q < |a| && a[q] == b[j];
      if p == q {
        assert b == b[..j] + b[j..];
        assert b[i] in multiset(b[..j]) && b[j] in multiset(b[j..]);
        assert multiset(b)[b[i]] == multiset(b[..j])[b[i]] + multiset(b[j..])[b[i]];
        CountAtMostOne(a, b[i]);
      } else if p > q {
        assert Stem(a[q]) != Stem(a[p]);
      }
    }
  }

  /** Appending a document whose stem is new keeps the row keys distinct. */
  lemma DistinctKeysAppend(pre: seq<ChunkWrite>, doc: seq<ChunkWrite>, stems: seq<string>, stem: string)
    requires DistinctKeys(RowEntries(pre)) && AllNamedAfter(pre, stems)
    requires stem !in stems && NamedInOrder(doc, stem)
    ensures DistinctKeys(RowEntries(pre + doc))
  {
    var ws := pre + doc;
    forall p, q | 0 <= p < q < |ws|
      ensures RowEntries(ws)[p].0 != RowEntries(ws)[q].0
    {
      assert RowEntries(ws)[p].0 == ws[p].name && RowEntries(ws)[q].0 == ws[q].name;
      if q < |pre| {
        assert ws[p] == pre[p] && ws[q] == pre[q];
        assert RowEntries(pre)[p].0 != RowEntries(pre)[q].0;
      } else {
        assert ws[q] == doc[q - |pre|];
        if p >= |pre| {
          assert ws[p] == doc[p - |pre|];
          if ws[p].name == ws[q].name {
            ChunkNameInjective(stem, p - |pre|, stem, q - |pre|);
          }
        } else {
          assert ws[p] == pre[p];
          assert NamedAfter(pre[p].name, stems);
          ChunkNameRoundTrip(stem, q - |pre|);
        }
      }
    }
  }

  /** With unique stems, no two writes share a name. */
  lemma {:induction false} CorpusKeysDistinct(files: seq<string>, read: string -> string, m: TextModel)
    requires UniqueStems(files)
    ensures DistinctKeys(RowEntries(CorpusWrites(files, read, m)))
    decreases |files|
  {
    if |files| > 0 {
      var n := |files| - 1;
      var init := files[..n];
      assert UniqueStems(init) by {
        forall i, j | 0 <= i < j < |init| ensures Stem(init[i]) != Stem(init[j]) {
          assert init[i] == files[i] && init[j] == files[j];
        }
      }
      var stem := Stem(files[n]);
      var pre := CorpusWrites(init, read, m);
      var doc := FileWrites(files[n], read, m);
      assert CorpusWrites(files, read, m) == pre + doc by {
        CorpusWritesSnoc(files, read, m);
      }
      assert stem !in Stems(init) by {
        forall k | 0 <= k < n ensures Stems(init)[k] != stem {
          assert Stems(init)[k] == Stem(files[k]);
        }
      }
      assert DistinctKeys(RowEntries(pre + doc)) by {
        CorpusKeysDistinct(init, read, m);
        CorpusWriteNames(init, read, m);
        DocumentWritesNamed(stem, read(files[n]), m);
        DistinctKeysAppend(pre, doc, Stems(init), stem);
      }
    }
  }

  /** With unique stems, `rows` never overwrites an entry: it holds every
      chunk of every document, one entry per chunk, in the sorted file order
      and then in chunk-index order. */
  lemma ProcessDocumentsRows(docsPresent: bool, listing: seq<string>, read: string -> string, m: TextModel,
                             embeddingDir: map<string, Vec>, chunkDir: map<string, string>)
    requires docsPresent && |listing| > 0 && UniqueStems(listing)
    ensures var r := ProcessDocuments(docsPresent, listing, read, m, embeddingDir, chunkDir);
            var files := Sorting.Sort(listing);
            && r.Success?
            && r.value.rows == RowEntries(CorpusWrites(files, read, m))
            && |r.value.rows| == TotalChunks(files, read, m)
  {
    var files := Sorting.Sort(listing);
    UniqueStemsPermutation(listing, files);
    CorpusKeysDistinct(files, read, m);
    CorpusWritesLength(files, read, m);
    var es := RowEntries(CorpusWrites(files, read, m));
    assert [] + es == es;
    SetAllFresh([], es);
  }

  /** Entry `TotalChunks(files[..j]) + c` of the rows built from the writes
      is chunk c of `files[j]`, keyed `<stem>_<c>` and holding that window's
      embedding; with `ProcessDocumentsRows` this places every chunk of the
      sorted listing in `rows`. */
  lemma CorpusRowAt(files: seq<string>, read: string -> string, m: TextModel, j: nat, c: nat)
    requires j < |files| && c < NumChunks(|m.tokenize(read(files[j]))|)
    ensures var rows := RowEntries(CorpusWrites(files, read, m));
            var p := TotalChunks(files[..j], read, m) + c;
            && p < |rows|
            && rows[p] == (ChunkName(Stem(files[j]), c), m.embed(Window(m.tokenize(read(files[j])), c)))
  {
    var ws := CorpusWrites(files, read, m);
    var p := TotalChunks(files[..j], read, m) + c;
    CorpusWritesOrder(files, read, m, j, c);
    RowEntryAt(ws, p);
  }

  lemma RowEntryAt(ws: seq<ChunkWrite>, p: nat)
    requires p < |ws|
    ensures p < |RowEntries(ws)| && RowEntries(ws)[p] == (ws[p].name, ws[p].embedding)
  {
  }

  /** Files are visited in sorted order, so the order the directory
      listing returned them in makes no difference. */
  lemma ProcessDocumentsIgnoresListingOrder(docsPresent: bool, l1: seq<string>, l2: seq<string>,
                                            read: string -> string, m: TextModel,
                                            embeddingDir: map<string, Vec>, chunkDir: map<string, string>)
    requires multiset(l1) == multiset(l2)
    ensures ProcessDocuments(docsPresent, l1, read, m, embeddingDir, chunkDir)
         == ProcessDocuments(docsPresent, l2, read, m, embeddingDir, chunkDir)
  {
    Sorting.SortPermutationInvariant(l1, l2);
    assert |l1| == |multiset(l1)| == |multiset(l2)| == |l2|;
  }

  /** Every chunk file the run adds is named `<stem>_<cidx>.txt`. */
  lemma GeneratedChunkFileNames(docsPresent: bool, listing: seq<string>, read: string -> string, m: TextModel,
                                embeddingDir: map<string, Vec>, chunkDir: map<string, string>)
    requires ProcessDocuments(docsPresent, listing, read, m, embeddingDir, chunkDir).Success?
    ensures var g := ProcessDocuments(docsPresent, listing, read, m, embeddingDir, chunkDir).value;
            forall name :: name in g.chunkFiles ==>
              || name in chunkDir
              || (&& |name| >= 4 && name[|name| - 4..] == ".txt"
                  && SplitChunkName(name[..|name| - 4]).Some?)
  {
    var files := Sorting.Sort(listing);
    var ws := CorpusWrites(files, read, m);
    var entries := FileEntries(ws, ".txt", (w: ChunkWrite) => w.text);
    var g := ProcessDocuments(docsPresent, listing, read, m, embeddingDir, chunkDir).value;
    assert g.chunkFiles == WriteAll(chunkDir, entries);
    CorpusWriteNames(files, read, m);
    forall name | name in g.chunkFiles && name !in chunkDir
      ensures |name| >= 4 && name[|name| - 4..] == ".txt" && SplitChunkName(name[..|name| - 4]).Some?
    {
      var i :| 0 <= i < |entries| && entries[i].0 == name;
      assert name == ws[i].name + ".txt";
      assert name[..|name| - 4] == ws[i].name;
    }
  }

  /** Names that differ still differ with the same extension appended. */
  lemma SuffixCancel(a: string, b: string, ext: string)
    ensures a + ext == b + ext <==> a == b
  {
    if a + ext == b + ext {
      assert a == (a + ext)[..|a|] && b == (b + ext)[..|b|];
    }
  }

  /** With unique stems, the file `<stem>_<c><ext>` the writes leave in a
      directory holds what the write of chunk c of that document put there. */
  lemma CorpusFileAt<T>(files: seq<string>, read: string -> string, m: TextModel, dir: map<string, T>,
                        ext: string, content: ChunkWrite -> T, j: nat, c: nat)
    requires UniqueStems(files)
    requires j < |files| && c < NumChunks(|m.tokenize(read(files[j]))|)
    ensures var out := WriteAll(dir, FileEntries(CorpusWrites(files, read, m), ext, content));
            var ids := m.tokenize(read(files[j]));
            var name := ChunkName(Stem(files[j]), c) + ext;
            && name in out
            && out[name] == content(ChunkWrite(ChunkName(Stem(files[j]), c), m.embed(Window(ids, c)), m.decode(Window(ids, c))))
  {
    var ws := CorpusWrites(files, read, m);
    var entries := FileEntries(ws, ext, content);
    var p := TotalChunks(files[..j], read, m) + c;
    CorpusWritesOrder(files, read, m, j, c);
    assert forall k :: p < k < |entries| ==> entries[k].0 != entries[p].0 by {
      CorpusKeysDistinct(files, read, m);
      forall k | p < k < |entries|
        ensures entries[k].0 != entries[p].0
      {
        assert RowEntries(ws)[p].0 == ws[p].name && RowEntries(ws)[k].0 == ws[k].name;
        assert ws[p].name != ws[k].name;
        SuffixCancel(ws[k].name, ws[p].name, ext);
      }
    }
    WriteAllLastWrite(dir, entries, p);
  }

  /** What a run writes: for every listed file with a unique stem, chunk c
      is saved as `chunks/<stem>_<c>.txt` holding the decoded text of its
      window and as `embeddings/<stem>_<c>.npy` holding its embedding. */
  lemma ProcessDocumentsFileContents(docsPresent: bool, listing: seq<string>, read: string -> string, m: TextModel,
                                     embeddingDir: map<string, Vec>, chunkDir: map<string, string>, i: nat, c: nat)
    requires docsPresent && UniqueStems(listing)
    requires i < |listing| && c < NumChunks(|m.tokenize(read(listing[i]))|)
    ensures var r := ProcessDocuments(docsPresent, listing, read, m, embeddingDir, chunkDir);
            var ids := m.tokenize(read(listing[i]));
            var name := ChunkName(Stem(listing[i]), c);
            && r.Success?
            && name + ".txt" in r.value.chunkFiles
            && r.value.chunkFiles[name + ".txt"] == m.decode(Window(ids, c))
            && name + ".npy" in r.value.embeddingFiles
            && r.value.embeddingFiles[name + ".npy"] == m.embed(Window(ids, c))
  {
    var files := Sorting.Sort(listing);
    var j :| 0 <= j < |files| && files[j] == listing[i] by {
      assert listing[i] in multiset(files);
    }
    assert UniqueStems(files) by {
      UniqueStemsPermutation(listing, files);
    }
    var ws := CorpusWrites(files, read, m);
    var r := ProcessDocuments(docsPresent, listing, read, m, embeddingDir, chunkDir);
    assert r == Success(Generated(
                 SetAll([], RowEntries(ws)),
                 WriteAll(embeddingDir, FileEntries(ws, ".npy", (w: ChunkWrite) => w.embedding)),
                 WriteAll(chunkDir, FileEntries(ws, ".txt", (w: ChunkWrite) => w.text))));
    CorpusFileAt(files, read, m, chunkDir, ".txt", (w: ChunkWrite) => w.text, j, c);
    CorpusFileAt(files, read, m, embeddingDir, ".npy", (w: ChunkWrite) => w.embedding, j, c);
  }

  // ---------------------------------------------------------------------
  // save_all_embeddings and build_faiss_index
  // ---------------------------------------------------------------------

  /** The pickled `all_embeddings.pkl` frame: the `chunk_id` index, the
      number of columns and one row of cells per chunk. */
  datatype Frame = Frame(chunkIds: seq<string>, width: nat, data: seq<Vec>)

  predicate ValidFrame(f: Frame) {
    |f.data| == |f.chunkIds| && HasWidth(f.data, f.width)
  }

  /** The longest embedding of the rows (0 for none): the column count
      pandas gives a frame built from them. */
  function MaxWidth(rows: Dict<string, Vec>): (w: nat)
    ensures forall i :: 0 <= i < |rows| ==> |rows[i].1| <= w
    ensures |rows| == 0 ==> w == 0
    ensures |rows| > 0 ==> exists i :: 0 <= i < |rows| && |rows[i].1| == w
    decreases |rows|
  {
    if |rows| == 0 then 0
    else
      var w := MaxWidth(rows[..|rows| - 1]);
      if |rows[|rows| - 1].1| > w then |rows[|rows| - 1].1| else w
  }

  /** A row shorter than the frame is filled up with NaN. */
  function Pad(v: Vec, w: nat): (r: Vec)
    requires |v| <= w
    ensures |r| == w && r[..|v|] == v
    ensures forall k :: |v| <= k < w ==> r[k] == NaN
  {
    v + seq(w - |v|, _ => NaN)
  }

  /** `save_all_embeddings(rows)`: `DataFrame.from_dict(rows, orient="index")`,
      one row per entry in the dictionary's order, keyed by chunk name. */
  function SaveAllEmbeddings(rows: Dict<string, Vec>): (f: Frame)
    ensures ValidFrame(f)
    ensures f.width == MaxWidth(rows)
    ensures f.chunkIds == Keys(rows)
    ensures forall i :: 0 <= i < |rows| ==>
              |rows[i].1| <= f.width && f.data[i][..|rows[i].1|] == rows[i].1
    ensures forall i, k :: 0 <= i < |rows| && |rows[i].1| <= k < f.width ==> f.data[i][k] == NaN
  {
    var w := MaxWidth(rows);
    Frame(Keys(rows), w, seq(|rows|, i requires 0 <= i < |rows| => Pad(rows[i].1, w)))
  }

  /** When every embedding has the model's dimension D, the frame is
      exactly the embeddings, D columns wide, with no padding. */
  lemma SaveAllEmbeddingsUniform(rows: Dict<string, Vec>, d: nat)
    requires |rows| > 0
    requires forall i :: 0 <= i < |rows| ==> |rows[i].1| == d
    ensures SaveAllEmbeddings(rows).width == d
    ensures forall i :: 0 <= i < |rows| ==> SaveAllEmbeddings(rows).data[i] == rows[i].1
  {
    var f := SaveAllEmbeddings(rows);
    assert |rows[0].1| <= f.width;
    var k :| 0 <= k < |rows| && |rows[k].1| == MaxWidth(rows);
    forall i | 0 <= i < |rows| ensures f.data[i] == rows[i].1 {
      assert f.data[i][..d] == rows[i].1;
    }
  }

  /** `build_faiss_index()`: `df` is the pickled frame, absent when the file
      is missing. The index holds one vector per frame row, in row order, so
      FAISS id i is chunk `chunkIds[i]`, and its dimension is the frame's
      column count. */
  function BuildFaissIndex(df: Option<Frame>): (r: Result<FlatIndex, GenError>)
    requires df.Some? ==> ValidFrame(df.value)
    ensures df.None? <==> r.Failure?
    ensures r.Failure? ==> r.error == DataFrameMissing
    ensures r.Success? ==> && r.value.dim == df.value.width
                           && |r.value.vectors| == |df.value.chunkIds|
                           && forall i :: 0 <= i < |r.value.vectors| ==> r.value.vectors[i] == df.value.data[i]
  {
    if df.None? then Failure(DataFrameMissing)
    else
      var f := df.value;
      Success(Add(NewFlatIndex(f.width), f.data))
  }

  /** Saving the rows and building the index from the saved frame gives
      one vector per row: FAISS id p is the chunk named `rows[p].0`, and its
      vector begins with that chunk's embedding. */
  lemma IndexFollowsRows(rows: Dict<string, Vec>)
    ensures var f := SaveAllEmbeddings(rows);
            var ix := BuildFaissIndex(Some(f)).value;
            && |ix.vectors| == |rows|
            && forall p :: 0 <= p < |rows| ==>
                 && f.chunkIds[p] == rows[p].0
                 && StartsWith(ix.vectors[p], rows[p].1)
  {
    var f := SaveAllEmbeddings(rows);
    var ix := BuildFaissIndex(Some(f)).value;
    assert |ix.vectors| == |f.chunkIds| == |Keys(rows)| == |rows|;
    forall p | 0 <= p < |rows|
      ensures f.chunkIds[p] == rows[p].0 && StartsWith(ix.vectors[p], rows[p].1)
    {
      assert f.chunkIds[p] == Keys(rows)[p];
      assert ix.vectors[p] == f.data[p];
    }
  }

  /** The generator run as `main` chains it: the index built from the
      frame saved from the rows of `files` holds one vector per chunk, and
      id `TotalChunks(files[..j]) + c` is chunk c of `files[j]`, under the
      name `<stem>_<c>` and holding that window's embedding. With
      `ProcessDocumentsRows` (the rows of a run are those of the sorted
      listing) this is the whole pipeline. */
  lemma IndexMatchesCorpus(files: seq<string>, read: string -> string, m: TextModel, j: nat, c: nat)
    requires j < |files| && c < NumChunks(|m.tokenize(read(files[j]))|)
    ensures var rows := RowEntries(CorpusWrites(files, read, m));
            var f := SaveAllEmbeddings(rows);
            var ix := BuildFaissIndex(Some(f)).value;
            var p := TotalChunks(files[..j], read, m) + c;
            && |ix.vectors| == TotalChunks(files, read, m)
            && p < |ix.vectors| && p < |f.chunkIds|
            && f.chunkIds[p] == ChunkName(Stem(files[j]), c)
            && StartsWith(ix.vectors[p], m.embed(Window(m.tokenize(read(files[j])), c)))
  {
    var rows := RowEntries(CorpusWrites(files, read, m));
    var f := SaveAllEmbeddings(rows);
    var p := TotalChunks(files[..j], read, m) + c;
    CorpusWritesLength(files, read, m);
    CorpusRowAt(files, read, m, j, c);
    IndexFollowsRows(rows);
    assert f.chunkIds[p] == rows[p].0;
  }
}

=== FILE: mock.dfy ===
/** The keyword chat bot (src/mock_backend/mock.py): the lowered message is
    checked against groups of keywords in a fixed order, and the first group
    with a keyword inside the message picks the reply. */
module Mock {
  import opened Wrappers
  import opened Strings

  /** DYSLEXIA_KEYWORDS and DYSPRAXIA_KEYWORDS. */
  const DyslexiaKeywords: seq<string> := ["dyslexia"]
  const DyspraxiaKeywords: seq<string> := ["dyspraxia"]

  /** The two long NHS replies, kept as distinct stand-ins for their text. */
  const DyslexiaResponse: string := "<DYSLEXIA_RESPONSE>"
  const DyspraxiaResponse: string := "<DYSPRAXIA_RESPONSE>"
  const DefaultResponse: string := "I'm a simple chatbot with limited responses. Try asking me something else!"

  /** `keyword_response_map`, in its insertion order. */
  const KeywordResponseMap: seq<(seq<string>, string)> :=
    [(DyslexiaKeywords, DyslexiaResponse), (DyspraxiaKeywords, DyspraxiaResponse)]

  /** `any(keyword in message_lower for keyword in keywords)`. */
  predicate AnyKeywordIn(text: string, keywords: seq<string>) {
    exists k :: 0 <= k < |keywords| && Contains(text, keywords[k])
  }

  /** The reply of the first group that matches, if any. */
  function FirstMatch(text: string, groups: seq<(seq<string>, string)>): (r: Option<string>)
    ensures r.None? <==> forall g :: 0 <= g < |groups| ==> !AnyKeywordIn(text, groups[g].0)
    ensures r.Some? ==> exists g :: && 0 <= g < |groups| && r.value == groups[g].1
                                    && AnyKeywordIn(text, groups[g].0)
                                    && forall e :: 0 <= e < g ==> !AnyKeywordIn(text, groups[e].0)
    decreases |groups|
  {
    if |groups| == 0 then None
    else if AnyKeywordIn(text, groups[0].0) then Some(groups[0].1)
    else
      var r := FirstMatch(text, groups[1..]);
      assert forall g :: 1 <= g < |groups| ==> groups[g] == groups[1..][g - 1];
      r
  }

  /** `chatbot_response(message, history)`; the history is not consulted. */
  function ChatbotResponse(message: string, history: seq<(string, string)>): (r: string)
    ensures r == DyslexiaResponse || r == DyspraxiaResponse || r == DefaultResponse
    ensures r == DefaultResponse <==>
              forall g :: 0 <= g < |KeywordResponseMap| ==> !AnyKeywordIn(Lower(message), KeywordResponseMap[g].0)
  {
    match FirstMatch(Lower(message), KeywordResponseMap)
    case Some(reply) => reply
    case None => DefaultResponse
  }

  /** The reply for each message, by the keywords its lowered form holds:
      "dyslexia" wins, whether or not "dyspraxia" is there too; "dyspraxia"
      alone gives the dyspraxia reply; neither gives the default. */
  lemma ChatbotResponseCases(message: string, history: seq<(string, string)>)
    ensures var text := Lower(message);
            var r := ChatbotResponse(message, history);
            && (Contains(text, "dyslexia") ==> r == DyslexiaResponse)
            && (!Contains(text, "dyslexia") && Contains(text, "dyspraxia") ==> r == DyspraxiaResponse)
            && (!Contains(text, "dyslexia") && !Contains(text, "dyspraxia") ==> r == DefaultResponse)
  {
    var text := Lower(message);
    assert AnyKeywordIn(text, DyslexiaKeywords) <==> Contains(text, "dyslexia") by {
      if Contains(text, "dyslexia") { assert Contains(text, DyslexiaKeywords[0]); }
    }
    assert AnyKeywordIn(text, DyspraxiaKeywords) <==> Contains(text, "dyspraxia") by {
      if Contains(text, "dyspraxia") { assert Contains(text, DyspraxiaKeywords[0]); }
    }
    var rest := KeywordResponseMap[1..];
    assert rest == [(DyspraxiaKeywords, DyspraxiaResponse)];
    assert rest[1..] == [];
    if !Contains(text, "dyslexia") {
      assert FirstMatch(text, KeywordResponseMap) == FirstMatch(text, rest);
      if Contains(text, "dyspraxia") {
        assert FirstMatch(text, rest) == Some(DyspraxiaResponse);
      }
    }
  }

  /** Since the three replies differ, each one is given exactly in its
      case. */
  lemma ChatbotResponseExactly(message: string, history: seq<(string, string)>)
    ensures var text := Lower(message);
            var r := ChatbotResponse(message, history);
            && (r == DyslexiaResponse <==> Contains(text, "dyslexia"))
            && (r == DyspraxiaResponse <==> !Contains(text, "dyslexia") && Contains(text, "dyspraxia"))
            && (r == DefaultResponse <==> !Contains(text, "dyslexia") && !Contains(text, "dyspraxia"))
  {
    ChatbotResponseCases(message, history);
  }

  /** Matching is case-insensitive: a message and its lowered form get the
      same reply, and the history never matters. */
  lemma ChatbotResponseIgnoresCaseAndHistory(message: string, h1: seq<(string, string)>, h2: seq<(string, string)>)
    ensures ChatbotResponse(message, h1) == ChatbotResponse(Lower(message), h2)
  {
    LowerIdempotent(message);
  }
}

=== FILE: ordered_dict.dfy ===
/** A Python `dict` as the core uses it: a sequence of (key, value) entries
    in insertion order, where assigning an existing key replaces its value
    in place and assigning a new key appends it. */
module OrderedDict {

  type Dict<K, V> = seq<(K, V)>

  function Keys<K, V>(d: Dict<K, V>): seq<K> {
    seq(|d|, i requires 0 <= i < |d| => d[i].0)
  }

  predicate DistinctKeys<K(==), V>(d: Dict<K, V>) {
    forall i, j :: 0 <= i < j < |d| ==> d[i].0 != d[j].0
  }

  /** `d[k] = v`. */
  function Set<K(==), V>(d: Dict<K, V>, k: K, v: V): (r: Dict<K, V>)
    ensures k !in Keys(d) ==> r == d + [(k, v)]
    ensures k in Keys(d) ==> Keys(r) == Keys(d)
    ensures forall i :: 0 <= i < |d| && d[i].0 != k ==> r[i] == d[i]
    ensures (k, v) in r
  {
    if |d| == 0 then [(k, v)]
    else if d[0].0 == k then
      assert Keys(d)[0] == k;
      [(k, v)] + d[1..]
    else
      assert Keys(d) == [d[0].0] + Keys(d[1..]);
      [d[0]] + Set(d[1..], k, v)
  }

  /** The assignments `d[k] = v` for each entry of `es`, in order. */
  function SetAll<K(==), V>(d: Dict<K, V>, es: Dict<K, V>): Dict<K, V>
    decreases |es|
  {
    if |es| == 0 then d
    else
      var last := es[|es| - 1];
      Set(SetAll(d, es[..|es| - 1]), last.0, last.1)
  }

  /** When every key is assigned once and none was present before, no
      entry is overwritten: the dictionary is the entries appended in
      assignment order. */
  lemma {:induction false} SetAllFresh<K, V>(d: Dict<K, V>, es: Dict<K, V>)
    requires DistinctKeys(d + es)
    ensures SetAll(d, es) == d + es
    decreases |es|
  {
    if |es| > 0 {
      var n := |es| - 1;
      var init := es[..n];
      assert d + es == (d + init) + [es[n]];
      assert DistinctKeys(d + init) by {
        forall i, j | 0 <= i < j < |d + init|
          ensures (d + init)[i].0 != (d + init)[j].0
        {
          assert (d + init)[i] == (d + es)[i] && (d + init)[j] == (d + es)[j];
        }
      }
      SetAllFresh(d, init);
      var k := es[n].0;
      assert k !in Keys(d + init) by {
        var ks := Keys(d + init);
        forall i | 0 <= i < |ks|
          ensures ks[i] != k
        {
          assert ks[i] == (d + es)[i].0 && k == (d + es)[|d| + n].0;
        }
      }
      assert SetAll(d, es) == Set(d + init, k, es[n].1);
    }
  }
}

=== FILE: rag_bot_deprecated.dfy ===
/** The earlier whole-document chat bot (src/backend/rag_bot_deprecated.py):
    one embedding per document, kept beside the documents and their file
    names in three parallel lists, and a context made of every document the
    search names. */
module RagBotDeprecated {
  import opened Wrappers
  import opened Strings
  import opened Vectors

  const DocumentSeparator: string := "\n\n---\n\n"
  const NoEmbeddingsError: string :=
    "Error: No embeddings loaded. Please ensure documents are in /docs directory and restart."
  /** The `top_k` that `chat` leaves at its default. */
  const DefaultTopK: nat := 3

  /** The external collaborators: `embed_text` and `index.search`. */
  datatype QueryBackend = QueryBackend(
    embed: string -> Vec,
    search: (FlatIndex, Vec, nat) -> seq<int>)  // the id row of the search; -1 marks a missing hit

  /** `(index, documents, filenames)` when all three are present. */
  datatype Store = Store(index: FlatIndex, documents: seq<string>, filenames: seq<string>)

  /** `create_embeddings` returns `(None, None, None)` for the first two;
      the third is the ValueError numpy raises for embeddings of unequal
      length. */
  datatype CreateError = DocsDirMissing | NoTxtFiles | InhomogeneousEmbeddings

  /** The three lists describe the same files, position by position. */
  predicate Lockstep(listing: seq<string>, read: string -> string, embed: string -> Vec,
                     documents: seq<string>, filenames: seq<string>, embeddings: seq<Vec>)
  {
    && |documents| == |filenames| == |embeddings| == |listing|
    && forall k :: 0 <= k < |listing| ==>
         && documents[k] == read(listing[k])
         && filenames[k] == listing[k]
         && embeddings[k] == embed(read(listing[k]))
  }

  /** The embeddings the loop would compute, all of one length. */
  predicate UniformEmbeddings(listing: seq<string>, read: string -> string, embed: string -> Vec)
    requires |listing| > 0
  {
    forall k :: 0 <= k < |listing| ==> |embed(read(listing[k]))| == |embed(read(listing[0]))|
  }

  /** `create_embeddings()`: `listing` is the `.txt` files the glob finds in `docs`, in the
      order the file system returns it, `read` a file's content. */
  method CreateEmbeddings(docsPresent: bool, listing: seq<string>, read: string -> string, embed: string -> Vec)
    returns (r: Result<Store, CreateError>)
    ensures r == Failure(DocsDirMissing) <==> !docsPresent
    ensures r == Failure(NoTxtFiles) <==> docsPresent && |listing| == 0
    ensures r == Failure(InhomogeneousEmbeddings) <==>
              docsPresent && |listing| > 0 && !UniformEmbeddings(listing, read, embed)
    ensures r.Success? ==>
              && Lockstep(listing, read, embed, r.value.documents, r.value.filenames, r.value.index.vectors)
              && r.value.index.dim == |embed(read(listing[0]))|
              && HasWidth(r.value.index.vectors, r.value.index.dim)
  {
    if !docsPresent {
      return Failure(DocsDirMissing);
    }
    var documents: seq<string> := [];
    var embeddings: seq<Vec> := [];
    var filenames: seq<string> := [];
    var i := 0;
    while i < |listing|
      invariant 0 <= i <= |listing|
      invariant Lockstep(listing[..i], read, embed, documents, filenames, embeddings)
    {
      var content := read(listing[i]);
      documents := documents + [content];
      filenames := filenames + [listing[i]];
      embeddings := embeddings + [embed(content)];
      i := i + 1;
    }
    assert listing[..i] == listing;
    if |documents| == 0 {
      return Failure(NoTxtFiles);
    }
    var dim := |embeddings[0]|;
    if !HasWidth(embeddings, dim) {
      return Failure(InhomogeneousEmbeddings);
    }
    var index := Add(NewFlatIndex(dim), embeddings);
    return Success(Store(index, documents, filenames));
  }

  /** `load_embeddings()`: each file's content, absent when it is missing or
      fails to load; any failure, or a missing directory, gives nothing. */
  function LoadEmbeddings(dirPresent: bool, indexFile: Option<FlatIndex>,
                          documentsFile: Option<seq<string>>, filenamesFile: Option<seq<string>>): (r: Option<Store>)
    ensures r.Some? <==> dirPresent && indexFile.Some? && documentsFile.Some? && filenamesFile.Some?
    ensures r.Some? ==> r.value == Store(indexFile.value, documentsFile.value, filenamesFile.value)
  {
    if !dirPresent then None
    else if indexFile.None? || documentsFile.None? || filenamesFile.None? then None
    else Some(Store(indexFile.value, documentsFile.value, filenamesFile.value))
  }

  // ---------------------------------------------------------------------
  // retrieve_context and chat
  // ---------------------------------------------------------------------

  /** Python's `s[i]`: a negative index counts from the end, and an index
      outside `[-len(s), len(s))` raises IndexError (here `None`). */
  function PyIndex<T>(s: seq<T>, i: int): (r: Option<T>)
    ensures r.Some? <==> -|s| <= i < |s|
    ensures r.Some? ==> r.value == s[i % |s|]
  {
    if 0 <= i < |s| then Some(s[i])
    else if -|s| <= i < 0 then Some(s[|s| + i])
    else None
  }

  /** `f"Document: {filenames[idx]}\n{documents[idx]}"`. */
  function DocumentPart(filename: string, document: string): string {
    "Document: " + filename + "\n" + document
  }

  /** The loop of `retrieve_context`: one part per hit, in search order,
      with no filtering; `None` when an index raises. */
  function ContextParts(hits: seq<int>, documents: seq<string>, filenames: seq<string>): (r: Option<seq<string>>)
    ensures r.Some? <==> forall i :: 0 <= i < |hits| ==>
                           PyIndex(filenames, hits[i]).Some? && PyIndex(documents, hits[i]).Some?
    ensures r.Some? ==> |r.value| == |hits|
    ensures r.Some? ==> forall i :: 0 <= i < |hits| ==>
              r.value[i] == DocumentPart(PyIndex(filenames, hits[i]).value, PyIndex(documents, hits[i]).value)
    decreases |hits|
  {
    if |hits| == 0 then Some([])
    else
      var init := hits[..|hits| - 1];
      var idx := hits[|hits| - 1];
      assert forall i :: 0 <= i < |init| ==> init[i] == hits[i];
      match ContextParts(init, documents, filenames)
      case None => None
      case Some(parts) =>
        match (PyIndex(filenames, idx), PyIndex(documents, idx))
        case (Some(name), Some(doc)) => Some(parts + [DocumentPart(name, doc)])
        case _ => None
  }

  /** `retrieve_context(query, index, documents, filenames, top_k)`:
      `None` when it raises IndexError. */
  function RetrieveContext(query: string, index: FlatIndex, documents: seq<string>, filenames: seq<string>,
                           topK: nat, b: QueryBackend): (r: Option<string>)
    ensures var hits := b.search(index, b.embed(query), topK);
            r.Some? <==> forall i :: 0 <= i < |hits| ==>
                           PyIndex(filenames, hits[i]).Some? && PyIndex(documents, hits[i]).Some?
    ensures var hits := b.search(index, b.embed(query), topK);
            r.Some? && |hits| == 0 ==> r.value == ""
    ensures var hits := b.search(index, b.embed(query), topK);
            r.Some? && |hits| > 0 ==>
              StartsWith(r.value, DocumentPart(PyIndex(filenames, hits[0]).value, PyIndex(documents, hits[0]).value))
  {
    var hits := b.search(index, b.embed(query), topK);
    match ContextParts(hits, documents, filenames)
    case None => None
    case Some(parts) => Some(Join(parts, DocumentSeparator))
  }

  /** With hits inside the lists, the context is every named document in
      search order, joined by the separator. */
  lemma RetrieveContextInRange(query: string, index: FlatIndex, documents: seq<string>, filenames: seq<string>,
                               topK: nat, b: QueryBackend)
    requires |documents| == |filenames|
    requires var hits := b.search(index, b.embed(query), topK);
             forall i :: 0 <= i < |hits| ==> 0 <= hits[i] < |documents|
    ensures var hits := b.search(index, b.embed(query), topK);
            RetrieveContext(query, index, documents, filenames, topK, b)
            == Some(Join(seq(|hits|, i requires 0 <= i < |hits| =>
                           DocumentPart(filenames[hits[i]], documents[hits[i]])), DocumentSeparator))
  {
    var hits := b.search(index, b.embed(query), topK);
    var parts := ContextParts(hits, documents, filenames);
    assert parts.Some?;
    assert parts.value == seq(|hits|, i requires 0 <= i < |hits| =>
                             DocumentPart(filenames[hits[i]], documents[hits[i]]));
  }

  /** Whenever retrieval does not raise, the context is all the parts,
      wrapped `-1` hits included, joined by the separator. */
  lemma RetrieveContextJoinsParts(query: string, index: FlatIndex, documents: seq<string>, filenames: seq<string>,
                                  topK: nat, b: QueryBackend)
    requires ContextParts(b.search(index, b.embed(query), topK), documents, filenames).Some?
    ensures RetrieveContext(query, index, documents, filenames, topK, b)
         == Some(Join(ContextParts(b.search(index, b.embed(query), topK), documents, filenames).value, DocumentSeparator))
  {
  }

  /** The `-1` FAISS reports for a missing hit (fewer documents than `top_k`)
      is not filtered: it reads the last document. */
  lemma MissingHitReadsLastDocument(hits: seq<int>, documents: seq<string>, filenames: seq<string>, i: nat)
    requires |documents| > 0 && |filenames| > 0
    requires i < |hits| && hits[i] == -1
    requires ContextParts(hits, documents, filenames).Some?
    ensures ContextParts(hits, documents, filenames).value[i]
         == DocumentPart(filenames[|filenames| - 1], documents[|documents| - 1])
  {
  }

  /** The three fixed pieces of the prompt `chat` sends. */
  const PromptOpening: string :=
    "You are a helpful assistant answering questions based on the provided documents.\n\nContext from documents:\n"
  const QuestionLabel: string := "\n\nQuestion: "
  const PromptClosing: string :=
    "\n\nPlease answer the question based on the context provided. If the context doesn't contain relevant information, say so."

  /** The prompt: the retrieved context right after the opening, the
      question right before the closing, both verbatim. */
  function Prompt(context: string, message: string): (r: string)
    ensures |r| == |PromptOpening| + |context| + |QuestionLabel| + |message| + |PromptClosing|
    ensures StartsWith(r, PromptOpening)
    ensures r[|PromptOpening|..|PromptOpening| + |context|] == context
    ensures r[|PromptOpening| + |context|..|PromptOpening| + |context| + |QuestionLabel|] == QuestionLabel
    ensures r[|r| - |PromptClosing| - |message|..|r| - |PromptClosing|] == message
    ensures r[|r| - |PromptClosing|..] == PromptClosing
  {
    Fill(PromptOpening, context, QuestionLabel, message, PromptClosing)
  }

  /** `chat(message, history, index, documents, filenames)`: `ask` is the
      language model call; `None` when retrieval raises. */
  function Chat(message: string, history: seq<(string, string)>, index: Option<FlatIndex>,
                documents: seq<string>, filenames: seq<string>, b: QueryBackend, ask: string -> string)
    : (r: Option<string>)
    ensures index.None? ==> r == Some(NoEmbeddingsError)
    ensures index.Some? ==> (r.None? <==> RetrieveContext(message, index.value, documents, filenames, DefaultTopK, b).None?)
    ensures index.Some? && r.Some? ==>
              r.value == ask(Prompt(RetrieveContext(message, index.value, documents, filenames, DefaultTopK, b).value, message))
  {
    if index.None? then Some(NoEmbeddingsError)
    else
      match RetrieveContext(message, index.value, documents, filenames, DefaultTopK, b)
      case None => None
      case Some(context) => Some(ask(Prompt(context, message)))
  }
}

=== FILE: rag_bot_v2.dfy ===
/** The chunk-based chat bot (src/backend/rag_bot_v2.py): it loads the flat
    index and the embedding frame, turns the ids a search returns into
    context blocks read from `chunks/<id>.txt`, and asks the language model
    with that context. */
module RagBotV2 {
  import opened Wrappers
  import opened Strings
  import Decimal
  import opened Vectors
  import GenerateEmbeddings

  const NoIndexAvailable: string := "No index available."
  const NoRelevantChunks: string := "No relevant retrieved chunks."
  const BlockSeparator: string := "\n\n---\n\n"
  /** The header of a context block, a page emoji (U+1F4C4) and the word Chunk. */
  const ChunkHeader: string := "\U{1F4C4} Chunk "
  const NoEmbeddingsWarning: string := "\U{26A0}\U{FE0F} No embeddings available. Run embedding generation first."
  const ApiErrorReply: string := "\U{26A0}\U{FE0F} Error communicating with Anthropic API. See server logs."
  /** The `top_k` that `chat` leaves at its default. */
  const DefaultTopK: nat := 3

  /** The external collaborators at query time. */
  datatype QueryBackend = QueryBackend(
    embed: string -> Vec,                      // `embed_text(query)`
    search: (FlatIndex, Vec, nat) -> seq<int>) // the id row of `index.search(query_vec, top_k)`; -1 marks a missing hit

  // ---------------------------------------------------------------------
  // load_index_and_count
  // ---------------------------------------------------------------------

  /** `(index, total)` as returned by `load_index_and_count`. */
  datatype Loaded = Loaded(index: Option<FlatIndex>, total: nat)

  /** `indexFile` and `frameFile` are the contents of `faiss_index.bin` and
      `all_embeddings.pkl`, absent when the file does not exist. */
  function LoadIndexAndCount(indexFile: Option<FlatIndex>, frameFile: Option<GenerateEmbeddings.Frame>): (r: Loaded)
    ensures r.index.None? <==> indexFile.None? || frameFile.None?
    ensures r.index.None? ==> r.total == 0
    ensures r.index.Some? ==> r.index == indexFile && r.total == |frameFile.value.chunkIds|
  {
    if indexFile.None? || frameFile.None? then Loaded(None, 0)
    else Loaded(indexFile, |frameFile.value.chunkIds|)
  }

  /** Loading what the generator saved: the chunk count is the number of
      vectors in the index, so every id the index knows is in range. */
  lemma LoadAfterBuild(f: GenerateEmbeddings.Frame)
    requires GenerateEmbeddings.ValidFrame(f)
    ensures var ix := GenerateEmbeddings.BuildFaissIndex(Some(f)).value;
            var loaded := LoadIndexAndCount(Some(ix), Some(f));
            loaded.index == Some(ix) && loaded.total == |ix.vectors|
  {
  }

  // ---------------------------------------------------------------------
  // retrieve_context
  // ---------------------------------------------------------------------

  /** `CHUNK_DIR / f"{raw_idx}.txt"` for an id already known to be in range. */
  function ChunkFileName(idx: nat): string {
    Decimal.FromNat(idx) + ".txt"
  }

  /** A search hit contributes a block when it is in `[0, total)` and its
      chunk file exists. */
  predicate Resolves(idx: int, total: nat, chunkDir: map<string, string>) {
    0 <= idx < total && ChunkFileName(idx) in chunkDir
  }

  /** `f"📄 Chunk {raw_idx}\n{chunk_text}"`. */
  function Block(idx: nat, text: string): string {
    ChunkHeader + Decimal.FromNat(idx) + "\n" + text
  }

  /** The loop over the search hits: out-of-range ids and ids without a
      chunk file are skipped, the others become blocks in hit order. */
  function ContextBlocks(hits: seq<int>, total: nat, chunkDir: map<string, string>): (blocks: seq<string>)
    ensures |blocks| <= |hits|
    ensures |blocks| == 0 <==> forall i :: 0 <= i < |hits| ==> !Resolves(hits[i], total, chunkDir)
    ensures forall k :: 0 <= k < |blocks| ==> StartsWith(blocks[k], ChunkHeader)
    decreases |hits|
  {
    if |hits| == 0 then []
    else
      var init := hits[..|hits| - 1];
      var idx := hits[|hits| - 1];
      var rest := ContextBlocks(init, total, chunkDir);
      assert forall i :: 0 <= i < |init| ==> init[i] == hits[i];
      if Resolves(idx, total, chunkDir) then rest + [Block(idx, chunkDir[ChunkFileName(idx)])]
      else rest
  }

  /** The blocks of two runs of hits are the blocks of each, in order: the
      filter keeps search order and treats every hit on its own. */
  lemma {:induction false} ContextBlocksAppend(h1: seq<int>, h2: seq<int>, total: nat, chunkDir: map<string, string>)
    ensures ContextBlocks(h1 + h2, total, chunkDir)
         == ContextBlocks(h1, total, chunkDir) + ContextBlocks(h2, total, chunkDir)
    decreases |h2|
  {
    if |h2| == 0 {
      assert h1 + h2 == h1;
    } else {
      var n := |h2| - 1;
      var init := h2[..n];
      var x := h2[n];
      var tail := ContextBlocks([x], total, chunkDir);
      assert h2 == init + [x];
      assert h1 + h2 == (h1 + init) + [x];
      calc {
        ContextBlocks(h1 + h2, total, chunkDir);
        { ContextBlocksSnoc(h1 + init, x, total, chunkDir); }
        ContextBlocks(h1 + init, total, chunkDir) + tail;
        { ContextBlocksAppend(h1, init, total, chunkDir); }
        ContextBlocks(h1, total, chunkDir) + ContextBlocks(init, total, chunkDir) + tail;
        { ContextBlocksSnoc(init, x, total, chunkDir); }
        ContextBlocks(h1, total, chunkDir) + ContextBlocks(h2, total, chunkDir);
      }
    }
  }

  /** One more hit adds the blocks of that hit alone. */
  lemma ContextBlocksSnoc(h: seq<int>, x: int, total: nat, chunkDir: map<string, string>)
    ensures ContextBlocks(h + [x], total, chunkDir) == ContextBlocks(h, total, chunkDir) + ContextBlocks([x], total, chunkDir)
  {
    assert (h + [x])[..|h|] == h;
    assert [x][..0] == [];
  }

  /** A single hit yields its block exactly when it resolves. */
  lemma ContextBlocksSingle(idx: int, total: nat, chunkDir: map<string, string>)
    ensures Resolves(idx, total, chunkDir) ==>
              ContextBlocks([idx], total, chunkDir) == [Block(idx, chunkDir[ChunkFileName(idx)])]
    ensures !Resolves(idx, total, chunkDir) ==> ContextBlocks([idx], total, chunkDir) == []
  {
    assert [idx][..0] == [];
  }

  /** `"\n\n---\n\n".join(blocks) if blocks else "No relevant retrieved chunks."` */
  function AssembleContext(blocks: seq<string>): (r: string)
    ensures |blocks| == 0 ==> r == NoRelevantChunks
    ensures |blocks| > 0 ==> StartsWith(r, blocks[0])
  {
    if |blocks| == 0 then NoRelevantChunks else Join(blocks, BlockSeparator)
  }

  /** A single block is the context on its own. */
  lemma AssembleContextSingle(b: string)
    ensures AssembleContext([b]) == b
  {
  }

  /** One more block is appended after the separator: no block is dropped,
      and blocks keep their order. */
  lemma AssembleContextSnoc(blocks: seq<string>, b: string)
    requires |blocks| > 0
    ensures AssembleContext(blocks + [b]) == AssembleContext(blocks) + BlockSeparator + b
  {
    JoinSnoc(blocks, BlockSeparator, b);
  }

  /** `retrieve_context(query, index, total_chunks, top_k)`. */
  function RetrieveContext(query: string, index: Option<FlatIndex>, total: nat, topK: nat,
                           b: QueryBackend, chunkDir: map<string, string>): (r: string)
    ensures index.None? ==> r == NoIndexAvailable
  {
    if index.None? then NoIndexAvailable
    else
      var hits := b.search(index.value, b.embed(query), topK);
      AssembleContext(ContextBlocks(hits, total, chunkDir))
  }

  /** With an index, the context is the blocks of the search hits that
      resolve, in search order, all of them joined by the separator (or
      the fallback when there are none). */
  lemma RetrieveContextJoinsBlocks(query: string, ix: FlatIndex, total: nat, topK: nat,
                                   b: QueryBackend, chunkDir: map<string, string>)
    ensures RetrieveContext(query, Some(ix), total, topK, b, chunkDir)
         == AssembleContext(ContextBlocks(b.search(ix, b.embed(query), topK), total, chunkDir))
  {
  }

  /** With an index, the three outcomes are told apart by the text alone:
      the fallback string exactly when no hit resolves, and text starting
      with a chunk header exactly when one does; never the no-index string. */
  lemma RetrieveContextOutcome(query: string, ix: FlatIndex, total: nat, topK: nat,
                               b: QueryBackend, chunkDir: map<string, string>)
    ensures var hits := b.search(ix, b.embed(query), topK);
            var r := RetrieveContext(query, Some(ix), total, topK, b, chunkDir);
            && (r == NoRelevantChunks <==> forall i :: 0 <= i < |hits| ==> !Resolves(hits[i], total, chunkDir))
            && (StartsWith(r, ChunkHeader) <==> exists i :: 0 <= i < |hits| && Resolves(hits[i], total, chunkDir))
            && r != NoIndexAvailable
  {
    var hits := b.search(ix, b.embed(query), topK);
    var blocks := ContextBlocks(hits, total, chunkDir);
    var r := RetrieveContext(query, Some(ix), total, topK, b, chunkDir);
    assert !StartsWith(NoRelevantChunks, ChunkHeader) by {
      assert NoRelevantChunks[0] != ChunkHeader[0];
    }
    if |blocks| > 0 {
      assert StartsWith(r, blocks[0]) && StartsWith(blocks[0], ChunkHeader);
      assert r[..|ChunkHeader|] == blocks[0][..|ChunkHeader|];
      assert r[0] != NoRelevantChunks[0] && r[0] != NoIndexAvailable[0];
    }
  }

  // ---------------------------------------------------------------------
  // chat and respond
  // ---------------------------------------------------------------------

  /** The three fixed pieces of the prompt `chat` sends. */
  const PromptOpening: string :=
    "\nYou are a helpful assistant answering questions using the retrieved context.\n\nContext:\n"
  const QuestionLabel: string := "\n\nUser Question: "
  const PromptClosing: string := "\n\nIf the context is not relevant, say so.\n"

  /** The prompt: the retrieved context right after the opening, the
      question right before the closing, both verbatim. */
  function Prompt(context: string, message: string): (r: string)
    ensures |r| == |PromptOpening| + |context| + |QuestionLabel| + |message| + |PromptClosing|
    ensures StartsWith(r, PromptOpening)
    ensures r[|PromptOpening|..|PromptOpening| + |context|] == context
    ensures r[|PromptOpening| + |context|..|PromptOpening| + |context| + |QuestionLabel|] == QuestionLabel
    ensures r[|r| - |PromptClosing| - |message|..|r| - |PromptClosing|] == message
    ensures r[|r| - |PromptClosing|..] == PromptClosing
  {
    Fill(PromptOpening, context, QuestionLabel, message, PromptClosing)
  }

  /** `chat(message, history, index, total_chunks)`; `ask` is the language
      model call, `None` when it raises. */
  function Chat(message: string, history: seq<(string, string)>, index: Option<FlatIndex>, total: nat,
                b: QueryBackend, chunkDir: map<string, string>, ask: string -> Option<string>): (r: string)
    ensures index.None? ==> r == NoEmbeddingsWarning
    ensures index.Some? && ask(Prompt(RetrieveContext(message, index, total, DefaultTopK, b, chunkDir), message)).None?
            ==> r == ApiErrorReply
    ensures index.Some? && ask(Prompt(RetrieveContext(message, index, total, DefaultTopK, b, chunkDir), message)).Some?
            ==> r == ask(Prompt(RetrieveContext(message, index, total, DefaultTopK, b, chunkDir), message)).value
  {
    if index.None? then NoEmbeddingsWarning
    else
      var context := RetrieveContext(message, index, total, DefaultTopK, b, chunkDir);
      match ask(Prompt(context, message))
      case Some(reply) => reply
      case None => ApiErrorReply
  }

  /** The Gradio `respond` handler: a message that is empty after `strip()`
      leaves the history as it is; any other adds one (message, reply) pair
      at the end. The input box is cleared either way. */
  function Respond(message: string, history: seq<(string, string)>, bot: string -> string)
    : (r: (string, seq<(string, string)>))
    ensures r.0 == ""
    ensures IsBlank(message) ==> r.1 == history
    ensures !IsBlank(message) ==> r.1 == history + [(message, bot(message))]
  {
    StripEmptyIffBlank(message);
    if Strip(message) == "" then ("", history)
    else ("", history + [(message, bot(message))])
  }
}

=== FILE: sorting.dfy ===
/** Python's ordering of file names (code-point lexicographic comparison of
    strings) and `sorted` over a list of names. */
module Sorting {

  /** `a <= b` on Python strings. */
  predicate LexLe(a: string, b: string)
    decreases |a|
  {
    |a| == 0 || (|b| > 0 && (a[0] < b[0] || (a[0] == b[0] && LexLe(a[1..], b[1..]))))
  }

  lemma {:induction false} LexLeReflexive(a: string)
    ensures LexLe(a, a)
    decreases |a|
  {
    if |a| > 0 {
      LexLeReflexive(a[1..]);
    }
  }

  lemma {:induction false} LexLeTotal(a: string, b: string)
    ensures LexLe(a, b) || LexLe(b, a)
    decreases |a|
  {
    if |a| > 0 && |b| > 0 && a[0] == b[0] {
      LexLeTotal(a[1..], b[1..]);
    }
  }

  lemma {:induction false} LexLeTransitive(a: string, b: string, c: string)
    requires LexLe(a, b) && LexLe(b, c)
    ensures LexLe(a, c)
    decreases |a|
  {
    if |a| > 0 && a[0] == b[0] && b[0] == c[0] {
      LexLeTransitive(a[1..], b[1..], c[1..]);
    }
  }

  lemma {:induction false} LexLeAntisymmetric(a: string, b: string)
    requires LexLe(a, b) && LexLe(b, a)
    ensures a == b
    decreases |a|
  {
    if |a| > 0 {
      LexLeAntisymmetric(a[1..], b[1..]);
      assert a == [a[0]] + a[1..] && b == [b[0]] + b[1..];
    }
  }

  predicate Sorted(s: seq<string>) {
    forall i, j :: 0 <= i < j < |s| ==> LexLe(s[i], s[j])
  }

  /** Puts `x` into a sorted list at its place. */
  function Insert(x: string, s: seq<string>): (r: seq<string>)
    requires Sorted(s)
    ensures Sorted(r)
    ensures |r| == |s| + 1
    ensures multiset(r) == multiset(s) + multiset{x}
  {
    if |s| == 0 then [x]
    else if LexLe(x, s[0]) then
      InsertHeadSorted(x, s);
      [x] + s
    else
      LexLeTotal(x, s[0]);
      var rest := Insert(x, s[1..]);
      assert s == [s[0]] + s[1..];
      HeadBelowAll(s[0], rest, s[1..], x);
      [s[0]] + rest
  }

  lemma InsertHeadSorted(x: string, s: seq<string>)
    requires Sorted(s) && |s| > 0 && LexLe(x, s[0])
    ensures Sorted([x] + s)
  {
    var r := [x] + s;
    forall i, j | 0 <= i < j < |r|
      ensures LexLe(r[i], r[j])
    {
      if i == 0 {
        if j > 1 { LexLeTransitive(x, s[0], s[j - 1]); }
      } else {
        assert r[i] == s[i - 1] && r[j] == s[j - 1];
      }
    }
  }

  /** A head that lies below every element of a sorted tail keeps the list
      sorted. */
  lemma HeadBelowAll(h: string, rest: seq<string>, tail: seq<string>, x: string)
    requires Sorted(rest) && Sorted([h] + tail) && LexLe(h, x)
    requires multiset(rest) == multiset(tail) + multiset{x}
    ensures Sorted([h] + rest)
  {
    var r := [h] + rest;
    forall i, j | 0 <= i < j < |r|
      ensures LexLe(r[i], r[j])
    {
      var y := rest[j - 1];
      assert r[j] == y;
      if i == 0 {
        assert y in multiset(rest);
        if y != x {
          assert y in multiset(tail);
          var k :| 0 <= k < |tail| && tail[k] == y;
          var ht := [h] + tail;
          assert ht[0] == h && ht[k + 1] == y;
          assert LexLe(ht[0], ht[k + 1]);
        }
      } else {
        assert r[i] == rest[i - 1];
      }
    }
  }

  /** Python's `sorted(names)`. */
  function Sort(s: seq<string>): (r: seq<string>)
    ensures Sorted(r)
    ensures |r| == |s|
    ensures multiset(r) == multiset(s)
  {
    if |s| == 0 then []
    else
      assert s == s[..|s| - 1] + [s[|s| - 1]];
      Insert(s[|s| - 1], Sort(s[..|s| - 1]))
  }

  /** The head of a sorted list lies below each of its elements. */
  lemma HeadIsLeast(s: seq<string>, x: string)
    requires Sorted(s) && x in multiset(s)
    ensures LexLe(s[0], x)
  {
    var k :| 0 <= k < |s| && s[k] == x;
    if k == 0 { LexLeReflexive(x); }
  }

  lemma TailMultiset(s: seq<string>)
    requires |s| > 0
    ensures multiset(s[1..]) == multiset(s) - multiset{s[0]}
  {
    assert s == [s[0]] + s[1..];
  }

  /** Two sorted lists with the same elements are the same list: the result
      of `sorted` does not depend on the order it was given. */
  lemma {:induction false} SortedUnique(a: seq<string>, b: seq<string>)
    requires Sorted(a) && Sorted(b) && multiset(a) == multiset(b)
    ensures a == b
    decreases |a|
  {
    assert |a| == |b| by {
      assert |a| == |multiset(a)| == |multiset(b)| == |b|;
    }
    if |a| > 0 {
      assert a[0] == b[0] by {
        assert a[0] in multiset(a) && b[0] in multiset(b);
        HeadIsLeast(a, b[0]);
        HeadIsLeast(b, a[0]);
        LexLeAntisymmetric(a[0], b[0]);
      }
      assert multiset(a[1..]) == multiset(b[1..]) by {
        TailMultiset(a);
        TailMultiset(b);
      }
      TailSorted(a);
      TailSorted(b);
      SortedUnique(a[1..], b[1..]);
      assert a == [a[0]] + a[1..] && b == [b[0]] + b[1..];
    }
  }

  lemma TailSorted(s: seq<string>)
    requires Sorted(s) && |s| > 0
    ensures Sorted(s[1..])
  {
    forall i, j | 0 <= i < j < |s| - 1 ensures LexLe(s[1..][i], s[1..][j]) {
      assert LexLe(s[i + 1], s[j + 1]);
    }
  }

  /** Sorting a permutation of a list gives the same result. */
  lemma SortPermutationInvariant(a: seq<string>, b: seq<string>)
    requires multiset(a) == multiset(b)
    ensures Sort(a) == Sort(b)
  {
    SortedUnique(Sort(a), Sort(b));
  }
}

=== FILE: strings.dfy ===
/** Python string operations the core relies on, over `seq<char>`:
    `sep.join`, the `in` substring test, ASCII `str.lower`, `str.strip`
    and `str.rfind` of a single character. */
module Strings {

  /** `s` begins with `prefix`. */
  predicate StartsWith<T(==)>(s: seq<T>, prefix: seq<T>) {
    |prefix| <= |s| && s[..|prefix|] == prefix
  }

  /** Python's `sep.join(parts)`. */
  function Join(parts: seq<string>, sep: string): (r: string)
    ensures |parts| > 0 ==> StartsWith(r, parts[0])
  {
    if |parts| == 0 then ""
    else if |parts| == 1 then parts[0]
    else parts[0] + sep + Join(parts[1..], sep)
  }

  /** Joining one more part appends the separator and that part. */
  lemma {:induction false} JoinSnoc(parts: seq<string>, sep: string, last: string)
    requires |parts| > 0
    ensures Join(parts + [last], sep) == Join(parts, sep) + sep + last
  {
    if |parts| == 1 {
      assert (parts + [last])[1..] == [last];
    } else {
      assert (parts + [last])[1..] == parts[1..] + [last];
      JoinSnoc(parts[1..], sep, last);
    }
  }

  /** The length of a join: every part once, plus one separator between
      each pair of neighbouring parts. */
  function TotalLength(parts: seq<string>): nat {
    if |parts| == 0 then 0 else |parts[0]| + TotalLength(parts[1..])
  }

  lemma {:induction false} JoinLength(parts: seq<string>, sep: string)
    requires |parts| > 0
    ensures |Join(parts, sep)| == TotalLength(parts) + (|parts| - 1) * |sep|
  {
    if |parts| > 1 {
      JoinLength(parts[1..], sep);
    }
  }

  /** An f-string with two holes, `f"{opening}{x}{middle}{y}{closing}"`:
      each piece sits verbatim at its place. */
  function Fill(opening: string, x: string, middle: string, y: string, closing: string): (r: string)
    ensures |r| == |opening| + |x| + |middle| + |y| + |closing|
    ensures StartsWith(r, opening)
    ensures r[|opening|..|opening| + |x|] == x
    ensures r[|opening| + |x|..|opening| + |x| + |middle|] == middle
    ensures r[|r| - |closing| - |y|..|r| - |closing|] == y
    ensures r[|r| - |closing|..] == closing
  {
    opening + x + middle + y + closing
  }

  /** Python's `needle in hay` for two strings. */
  predicate Contains(hay: string, needle: string)
    decreases |hay|
  {
    StartsWith(hay, needle) || (|hay| > 0 && Contains(hay[1..], needle))
  }

  /** `needle` occurs in `hay` at offset `i`. */
  predicate OccursAt(hay: string, needle: string, i: int) {
    0 <= i && i + |needle| <= |hay| && hay[i..i + |needle|] == needle
  }

  /** `Contains` holds exactly when `needle` occurs at some offset of `hay`. */
  lemma {:induction false} ContainsAt(hay: string, needle: string)
    ensures Contains(hay, needle) <==> exists i :: OccursAt(hay, needle, i)
    decreases |hay|
  {
    if StartsWith(hay, needle) {
      assert OccursAt(hay, needle, 0);
    }
    if |hay| > 0 {
      var tail := hay[1..];
      ContainsAt(tail, needle);
      if Contains(tail, needle) {
        var i :| OccursAt(tail, needle, i);
        assert tail[i..i + |needle|] == hay[i + 1..i + 1 + |needle|];
        assert OccursAt(hay, needle, i + 1);
      }
      if !StartsWith(hay, needle) && exists i :: OccursAt(hay, needle, i) {
        var i :| OccursAt(hay, needle, i);
        assert i != 0;
        assert tail[i - 1..i - 1 + |needle|] == hay[i..i + |needle|];
        assert OccursAt(tail, needle, i - 1);
      }
    } else if exists i :: OccursAt(hay, needle, i) {
      var i :| OccursAt(hay, needle, i);
      assert i == 0 && hay[..|needle|] == hay[0..|needle|];
    }
  }

  /** `str.lower` restricted to ASCII letters; every other character is
      left alone. */
  function LowerChar(c: char): char {
    if 'A' <= c <= 'Z' then (c as int + 32) as char else c
  }

  function Lower(s: string): string {
    seq(|s|, i requires 0 <= i < |s| => LowerChar(s[i]))
  }

  /** Lowering twice is lowering once, so a lowered message compares as its
      own lowered form. */
  lemma LowerIdempotent(s: string)
    ensures Lower(Lower(s)) == Lower(s)
  {
    forall i | 0 <= i < |s|
      ensures Lower(Lower(s))[i] == Lower(s)[i]
    {
      var c := s[i];
      if 'A' <= c <= 'Z' {
        assert 'a' <= LowerChar(c) <= 'z';
      }
    }
  }

  /** The characters Python's `str.isspace` accepts (and so `str.strip()`
      removes). */
  predicate IsSpace(c: char) {
    || c == ' ' || c == '\t' || c == '\n' || c == '\r'
    || c == '\U{000B}' || c == '\U{000C}'
    || ('\U{001C}' <= c <= '\U{001F}')
    || c == '\U{0085}' || c == '\U{00A0}' || c == '\U{1680}'
    || ('\U{2000}' <= c <= '\U{200A}')
    || c == '\U{2028}' || c == '\U{2029}' || c == '\U{202F}'
    || c == '\U{205F}' || c == '\U{3000}'
  }

  predicate IsBlank(s: string) {
    forall i :: 0 <= i < |s| ==> IsSpace(s[i])
  }

  function StripLeading(s: string): (r: string)
    ensures r == "" || !IsSpace(r[0])
    decreases |s|
  {
    if |s| > 0 && IsSpace(s[0]) then StripLeading(s[1..]) else s
  }

  function StripTrailing(s: string): string
    decreases |s|
  {
    if |s| > 0 && IsSpace(s[|s| - 1]) then StripTrailing(s[..|s| - 1]) else s
  }

  /** Python's `str.strip()` with no arguments. */
  function Strip(s: string): string {
    StripTrailing(StripLeading(s))
  }

  lemma {:induction false} StripLeadingEmpty(s: string)
    ensures StripLeading(s) == "" <==> IsBlank(s)
    decreases |s|
  {
    if |s| > 0 && IsSpace(s[0]) {
      StripLeadingEmpty(s[1..]);
      assert IsBlank(s) <==> IsBlank(s[1..]) by {
        if IsBlank(s[1..]) {
          forall i | 0 <= i < |s| ensures IsSpace(s[i]) {
            if i > 0 { assert s[i] == s[1..][i - 1]; }
          }
        }
      }
    }
  }

  lemma {:induction false} StripTrailingEmpty(s: string)
    ensures StripTrailing(s) == "" <==> IsBlank(s)
    decreases |s|
  {
    if |s| > 0 && IsSpace(s[|s| - 1]) {
      StripTrailingEmpty(s[..|s| - 1]);
      assert IsBlank(s) <==> IsBlank(s[..|s| - 1]) by {
        if IsBlank(s[..|s| - 1]) {
          forall i | 0 <= i < |s| ensures IsSpace(s[i]) {
            if i < |s| - 1 { assert s[i] == s[..|s| - 1][i]; }
          }
        }
      }
    }
  }

  /** `not s.strip()` holds exactly for the strings made only of whitespace
      (the empty string included). */
  lemma StripEmptyIffBlank(s: string)
    ensures Strip(s) == "" <==> IsBlank(s)
  {
    StripLeadingEmpty(s);
    StripTrailingEmpty(StripLeading(s));
    if !IsBlank(StripLeading(s)) {
      assert !IsSpace(StripLeading(s)[0]);
    }
  }

  /** Python's `s.rfind(c)` for one character: the last position holding
      `c`, or -1 when there is none. */
  function LastIndexOf(s: string, c: char): (r: int)
    ensures -1 <= r < |s|
    ensures r >= 0 ==> s[r] == c
    ensures forall j :: r < j < |s| ==> s[j] != c
    decreases |s|
  {
    if |s| == 0 then -1
    else if s[|s| - 1] == c then |s| - 1
    else LastIndexOf(s[..|s| - 1], c)
  }
}

=== FILE: vectors.dfy ===
/** Embedding vectors and the flat inner-product index that stores them.
    Float arithmetic is out of scope: a cell is an opaque number, or the
    NaN that pandas fills into a frame built from rows of unequal length. */
module Vectors {

  datatype F32 = Num(value: real) | NaN

  type Vec = seq<F32>

  /** A `faiss.IndexFlatIP`: its dimension and its stored vectors, where the
      position of a vector is the id that `search` reports for it. */
  datatype FlatIndex = FlatIndex(dim: nat, vectors: seq<Vec>)

  predicate HasWidth(vs: seq<Vec>, w: nat) {
    forall i :: 0 <= i < |vs| ==> |vs[i]| == w
  }

  /** `faiss.IndexFlatIP(dim)`: an empty index. */
  function NewFlatIndex(dim: nat): (ix: FlatIndex)
    ensures ix.dim == dim && |ix.vectors| == 0
  {
    FlatIndex(dim, [])
  }

  /** `index.add(matrix)`: the rows get the next ids in order; the rows
      must have the index's dimension. */
  function Add(ix: FlatIndex, matrix: seq<Vec>): (r: FlatIndex)
    requires HasWidth(matrix, ix.dim)
    ensures r.dim == ix.dim
    ensures |r.vectors| == |ix.vectors| + |matrix|
    ensures r.vectors[..|ix.vectors|] == ix.vectors
    ensures forall i :: 0 <= i < |matrix| ==> r.vectors[|ix.vectors| + i] == matrix[i]
  {
    FlatIndex(ix.dim, ix.vectors + matrix)
  }
}

=== FILE: wrappers.dfy ===
/** `Option` for the Python `None`-or-value returns and `Result` for the
    typed error exits. */
module Wrappers {

  datatype Option<+T> = None | Some(value: T)

  datatype Result<+T, +E> = Success(value: T) | Failure(error: E)
}
